=== FILE: README.md ===
# KenKen constraint solver, modelled in Dafny

This project models the core of a KenKen solver written in Java. A KenKen
puzzle is an n×n grid. Every row and every column must hold each of the
values 1..n exactly once. Every cage (a "group") of cells must reach its
target under its operator (`+`, `*`, `-`, `/`).

The solver works in three stages:

1. It gives every cell the domain {1..n}.
2. It runs AC-3 over row, column and cage arcs.
3. It runs a backtracking search. The search picks the unassigned cell with
   the smallest domain (MRV). It tries the values of that domain, checks each
   one with `isValid`, and prunes the value from the cell's row and column
   neighbours (forward checking). On failure it undoes the placement and the
   pruning.

The puzzle is read from text. The first line is the size. Every later line
that does not start with `#` is one cage, written `r,c;r,c;...->op,target`.

Modules, following the program's structure:

- `Wrappers`: `Option` and `Result`.
- `Cells`: `Cell` and `Arc`, with Java's `equals` and 32-bit `hashCode`.
- `JavaInt`: Java's truncating `/` and `%`, plus `Math.abs`, `max` and `min`.
- `Board`: grids, cages and puzzles.
- `Constraints`: the four cage checks, `isValid`, and AC-3's pairwise
  `isConsistent` / `checkGroupConsistency`.
- `Domains`: `initializeDomains`, `updateDomain`, `restoreDomains` and
  `forwardCheck`.
- `ArcConsistency`: queue seeding, `getNeighbors`,
  `removeInconsistentValues` and `ac3`.
- `Search`: `selectUnassignedVariable`, `solve` and `solvePuzzle`.
- `Text`: the parts of `String.split`, `startsWith` and `Integer.parseInt`
  that the loader uses, plus `Integer.toString`, which only the writer below
  uses.
- `Parser`: `Main.readPuzzle`, plus a writer used to state the round trip.

Mutable solver state is modelled with values:

- The grid is a `seq<seq<int>>`, with 0 meaning unassigned.
- The domain store is a `map<Cell, set<int>>`.
- Each Java method that mutates state returns the new state instead.
- Each place where the loader (`Main.readPuzzle`) throws an exception is a
  `Failure`.
- The solver's own exceptions are excluded by preconditions instead. These
  are the missing domain in AC-3, the out-of-bounds index in `isValid` and
  the division by zero in `checkMultiplicationConstraint`. "Left out" lists
  each of them.

## Model

| member | source | states |
|---|---|---|
| Cells.CellEquals | src/Cell.java:11-17 | two cells are equal exactly when their rows and columns agree |
| Cells.CellHash | src/Cell.java:19-22 | the hash is a Java int congruent to 961 + 31·row + col modulo 2^32, and equals it exactly for coordinates below 2^24 |
| Cells.CellEqualsIsEquivalence | src/Cell.java:11-17 | cell equality is reflexive, symmetric and transitive |
| Cells.Wrap32 | src/Cell.java:19-22 | the result is a Java int congruent to the input modulo 2^32 |
| Cells.Hash2 | src/Cell.java:19-22 | `Objects.hash` of two ints is the Java int congruent to 31·(31+a)+b modulo 2^32 |
| Cells.CellHashRespectsEquals | src/Cell.java:11-22 | cells that are equal have equal hash codes, as HashMap keys require |
| Cells.ArcEquals | src/Arc.java:11-17 | two arcs are equal exactly when both endpoints agree, in order |
| Cells.ArcHash | src/Arc.java:19-22 | the hash is a Java int congruent to 31·(31 + hash of the first cell) + hash of the second cell modulo 2^32 |
| Cells.ArcEqualsDirectional | src/Arc.java:11-17 | arcs are directed: an arc equals its reverse only when both ends are the same cell |
| Cells.ArcHashRespectsEquals | src/Arc.java:11-22 | arcs that are equal have equal hash codes |
| Board.Assign | src/CSPPuzzleSolver.java:201 | writing a value keeps the grid's shape, puts the value in the cell and changes no other cell |
| Board.AssignBack | src/CSPPuzzleSolver.java:211-212 | writing back the cell's old value restores the grid exactly |
| Board.AssignShrinksZeroCells | src/CSPPuzzleSolver.java:196-201 | assigning an unassigned cell removes exactly that cell from the unassigned set, so the search's recursion is well-founded |
| Constraints.SumScan | src/CSPPuzzleSolver.java:76-90 | the loop's sum is the cage sum with the value written in; its flag holds exactly when every other cell is filled |
| Constraints.ProductScan | src/CSPPuzzleSolver.java:102-117 | the loop's product is the product of the filled cells with the value written in, and is never 0 for a non-zero value; its flag holds exactly when every other cell is filled |
| Constraints.CheckAddition | src/CSPPuzzleSolver.java:75-99 | with every other cell filled, the value is accepted exactly when the cage sum hits the target; otherwise exactly when the partial sum does not exceed it |
| Constraints.CheckMultiplication | src/CSPPuzzleSolver.java:101-126 | with every other cell filled, the value is accepted exactly when the cage product hits the target; otherwise exactly when the partial product divides the target |
| Constraints.Partner | src/CSPPuzzleSolver.java:134 | the partner is a cell of the two-cell cage, and it is not the current cell when the cage's two cells differ |
| Constraints.CheckDivision | src/CSPPuzzleSolver.java:128-149 | cages without exactly two cells are rejected; an empty partner accepts any value; with the partner filled, the value is accepted exactly when the larger value is the target times the smaller |
| Constraints.CheckSubtraction | src/CSPPuzzleSolver.java:151-172 | cages without exactly two cells are rejected; an empty partner accepts any value; with the partner filled, the value is accepted exactly when the two values differ by the target |
| Constraints.CageCheck | src/CSPPuzzleSolver.java:47-69 | an operator other than `+ * / -` accepts; a `-` or `/` cage without exactly two cells rejects; a `+` cage rejects a value that pushes its sum past the target |
| Constraints.CageCheckComplete | src/CSPPuzzleSolver.java:46-70 | once every other cell of a cage is filled, its operator's check accepts the value exactly when the cage with the value written in is satisfied |
| Constraints.LineScan | src/CSPPuzzleSolver.java:40-44 | the row/column loop accepts exactly when no other cell of the row or column holds the value |
| Constraints.LineScanFree | src/CSPPuzzleSolver.java:40-44 | the index loop over the row and column checks exactly the cells sharing a line with the cell |
| Constraints.CageScan | src/CSPPuzzleSolver.java:47-70 | the cage loop accepts exactly when every cage containing the cell accepts the value |
| Constraints.IsValid | src/CSPPuzzleSolver.java:38-73 | a value is valid exactly when its row and column are free of it and every cage holding the cell accepts it |
| Constraints.IsConsistent | src/CSPPuzzleSolver.java:330-334 | two cells in one row or column are consistent exactly when their values differ |
| Constraints.SharedScan | src/CSPPuzzleSolver.java:337-343 | a rejection always comes from a cage holding both cells whose pairwise test rejects |
| Constraints.SharedScanNone | src/CSPPuzzleSolver.java:337-343 | when no cage holds both cells, the scan accepts |
| Constraints.SharedScanFirst | src/CSPPuzzleSolver.java:337-341 | the first cage holding both cells decides the scan |
| Constraints.CageConsistency | src/CSPPuzzleSolver.java:330-344 | off the lines, the first cage holding both cells decides consistency, and cells sharing no cage are unconstrained |
| Constraints.CheckGroupConsistency | src/CSPPuzzleSolver.java:346-364 | operators other than `-` and `/` accept any pair; `-` accepts exactly a two-cell cage whose values differ by the target; `/` rejects cages without two cells |
| Constraints.DivisionPair | src/CSPPuzzleSolver.java:356-360 | for positive values, a `/` cage accepts a pair exactly when it has two cells and the larger value is the target times the smaller |
| JavaInt.ExactDivision | src/CSPPuzzleSolver.java:148 | for a non-negative dividend and a positive divisor, Java's quotient equals t with remainder 0 exactly when the dividend is t times the divisor; line 360 applies the same test |
| JavaInt.Abs | src/CSPPuzzleSolver.java:167-168 | `Math.abs` is non-negative and is the value or its negation |
| JavaInt.Max | src/CSPPuzzleSolver.java:143 | `Math.max` is at least both arguments and is one of them |
| JavaInt.Min | src/CSPPuzzleSolver.java:144 | `Math.min` is at most both arguments and is one of them |
| JavaInt.Div | src/CSPPuzzleSolver.java:148 | Java's `/` truncates toward zero: the quotient's magnitude is the quotient of the magnitudes, non-negative when the signs agree and non-positive when they differ |
| JavaInt.Rem | src/CSPPuzzleSolver.java:125 | Java's `%` takes the dividend's sign, is smaller in magnitude than the divisor, and with `/` rebuilds the dividend: quotient times divisor plus remainder |
| JavaInt.SignedSplit | src/CSPPuzzleSolver.java:125 | giving the magnitudes' quotient and remainder Java's signs rebuilds the dividend, for every sign combination |
| Constraints.GroupConsistencySymmetric | src/CSPPuzzleSolver.java:346-364 | the pairwise cage test gives the same answer with the two values swapped |
| Constraints.SharedScanSymmetric | src/CSPPuzzleSolver.java:337-343 | the cage scan gives the same answer with the two (cell, value) pairs swapped |
| Constraints.ConsistencySymmetric | src/CSPPuzzleSolver.java:330-364 | `isConsistent` is symmetric in its two (cell, value) pairs |
| Constraints.ArcAgreesWithCage | src/CSPPuzzleSolver.java:346-364 | for `-` and `/` cages, AC-3's pairwise test agrees with the search's cage check once the partner holds its value |
| Constraints.SatisfiedFrame | src/CSPPuzzleSolver.java:201 | writing a cell outside a cage leaves that cage's filled state and satisfaction unchanged |
| Domains.Values | src/CSPPuzzleSolver.java:29-32 | the initial domain holds exactly 1..n and has n elements |
| Domains.InitialDomains | src/CSPPuzzleSolver.java:24-36 | every cell of the n×n grid, and no other cell, has a domain; each domain holds exactly 1..n |
| Domains.UpdateDomain | src/CSPPuzzleSolver.java:239-245 | the cell loses the value and every other cell keeps its domain; the journal gains the cell, keeps each entry it already had, and records the cell's domain as it was before the change on first touch |
| Domains.UpdateKeepsJournal | src/CSPPuzzleSolver.java:239-245 | an update keeps the journal exact and adds the cell to it; the cell loses the value and every other cell, journalled or not, keeps its current domain |
| Domains.RestoreDomains | src/CSPPuzzleSolver.java:248-252 | every journalled cell gets its saved domain back and every other cell keeps its current one |
| Domains.RestoreUndoes | src/CSPPuzzleSolver.java:248-252 | restoring from an exact journal gives back the original domain store |
| Domains.Touch | src/CSPPuzzleSolver.java:224-227 | one neighbour update extends the journal by that neighbour; the step reports emptiness exactly when that neighbour's domain became empty |
| Domains.ReachedRowStep | src/CSPPuzzleSolver.java:224 | passing column i of the row scan adds the cell at column i when it is an unassigned neighbour, and adds nothing otherwise |
| Domains.ReachedColStep | src/CSPPuzzleSolver.java:230 | passing row i of the column scan adds the cell at row i when it is an unassigned neighbour, and adds nothing otherwise |
| Domains.RowStep | src/CSPPuzzleSolver.java:223-228 | after the row half of iteration i, the journal names exactly the neighbours reached so far, each without the value |
| Domains.ColStep | src/CSPPuzzleSolver.java:229-234 | after the column half of iteration i, the journal names exactly the neighbours reached so far, each without the value |
| Domains.ReachedAll | src/CSPPuzzleSolver.java:222-235 | the cells reached are line neighbours, and after the last index they are all of them |
| Domains.ForwardCheck | src/CSPPuzzleSolver.java:220-237 | the journal is exact and names only unassigned row/column neighbours, each of which lost the value; on success it names all of them and none is empty; on failure one is empty |
| ArcConsistency.LinkedSymmetric | src/CSPPuzzleSolver.java:257-286 | the arc relation seeded into the queue is symmetric |
| ArcConsistency.RowArcs | src/CSPPuzzleSolver.java:262-267 | the row arcs of a cell go to exactly the other cells of its row |
| ArcConsistency.ColArcs | src/CSPPuzzleSolver.java:268-273 | the column arcs of a cell go to exactly the other cells of its column |
| ArcConsistency.SeedRow | src/CSPPuzzleSolver.java:260-274 | the arcs seeded for one row are exactly the line arcs leaving that row's cells |
| ArcConsistency.SeedLines | src/CSPPuzzleSolver.java:259-275 | the row and column arcs seeded are exactly the ordered pairs of distinct cells sharing a line |
| ArcConsistency.OutArcs | src/CSPPuzzleSolver.java:280-284 | the arcs from one cage cell go to exactly the cage's other cells |
| ArcConsistency.CagePairs | src/CSPPuzzleSolver.java:279-285 | one cage's arcs are exactly its ordered pairs of distinct cells |
| ArcConsistency.CageSplit | src/CSPPuzzleSolver.java:278 | sharing a cage of a non-empty list means sharing its first cage or one of the rest |
| ArcConsistency.CageArcs | src/CSPPuzzleSolver.java:277-286 | the cage arcs are exactly the ordered pairs of distinct cells sharing some cage |
| ArcConsistency.InitialArcs | src/CSPPuzzleSolver.java:255-286 | the initial queue holds exactly the arcs between distinct cells sharing a row, a column or a cage |
| ArcConsistency.RowMates | src/CSPPuzzleSolver.java:369-374 | the row neighbours are exactly the other cells of the row |
| ArcConsistency.ColMates | src/CSPPuzzleSolver.java:376-381 | the column neighbours are exactly the other cells of the column |
| ArcConsistency.CageMates | src/CSPPuzzleSolver.java:383-392 | the cage neighbours are exactly the other cells of the cages containing the cell |
| ArcConsistency.Neighbours | src/CSPPuzzleSolver.java:366-395 | a cell's neighbours are exactly the cells linked to it by a line or a cage |
| ArcConsistency.Requeue | src/CSPPuzzleSolver.java:296-300 | the re-enqueued arcs point into the revised cell from each neighbour except the arc's other end |
| ArcConsistency.HasSupport | src/CSPPuzzleSolver.java:313-319 | the inner loop finds a consistent partner value exactly when one exists |
| ArcConsistency.RemoveInconsistentValues | src/CSPPuzzleSolver.java:306-328 | only the arc's source domain changes, and it keeps exactly its supported values; the result says whether any value was unsupported |
| ArcConsistency.PairsShrink | src/CSPPuzzleSolver.java:326 | a strict removal from a domain strictly shrinks the store, so AC-3 terminates |
| ArcConsistency.ReviseKeepsCover | src/CSPPuzzleSolver.java:289-301 | after a revision and the re-enqueueing, every linked arc is either queued or arc-consistent |
| ArcConsistency.LinkedInRange | src/CSPPuzzleSolver.java:257-286 | both ends of a seeded arc lie on the grid |
| ArcConsistency.ReviseHead | src/CSPPuzzleSolver.java:290-301 | one queue step only shrinks domains, reports an emptied domain, keeps the queue-covers-inconsistency invariant and decreases the termination measure |
| ArcConsistency.AC3 | src/CSPPuzzleSolver.java:254-304 | domains only shrink and keep their cells; false means some domain is empty; on true every linked arc is arc-consistent |
| Search.MrvChoiceUnique | src/CSPPuzzleSolver.java:174-193 | at most one cell is the MRV choice, so the heuristic is deterministic |
| Search.ScanStep | src/CSPPuzzleSolver.java:181-187 | visiting a cell keeps the best-so-far candidate: the first unassigned cell with a strictly smallest domain |
| Search.ScanRow | src/CSPPuzzleSolver.java:180-189 | after one row the candidate is the MRV choice among all cells visited so far |
| Search.SelectUnassigned | src/CSPPuzzleSolver.java:174-193 | None exactly when every cell is assigned; otherwise an unassigned cell with a minimum domain, and the first such cell in row-major order |
| Search.UsableFor | src/CSPPuzzleSolver.java:200 | in the search state `isValid` can run without an index or division error |
| Search.AssignKeepsInv | src/CSPPuzzleSolver.java:200-201 | placing a value `isValid` accepts keeps lines repeat-free and every filled cage satisfied |
| Search.PruneKeepsInv | src/CSPPuzzleSolver.java:205 | forward checking keeps the search state |
| Search.FullIsSolution | src/CSPPuzzleSolver.java:196-197 | a full grid in the search state is a solution |
| Search.Solve | src/CSPPuzzleSolver.java:195-218 | true comes with a solution that keeps every value already placed; false leaves the grid and domains exactly as they were, each value being tried on the state the previous failed trial left behind |
| Search.TryValue | src/CSPPuzzleSolver.java:200-214 | one value trial: true comes with a solution extending the grid; false undoes the placement and the pruning exactly, starting from the state the failed recursive call returned |
| Search.StartInv | src/CSPPuzzleSolver.java:397-403 | the empty grid with domains cut down from the initial ones is a search state |
| Search.SolvePuzzle | src/CSPPuzzleSolver.java:397-404 | true comes with a grid that solves the puzzle; false leaves the grid empty |
| Text.IndexFromFirst | src/Main.java:114 | the search finds an occurrence of the separator, and none earlier |
| Text.IndexOfFirst | src/Main.java:114 | `indexOf` returns the first occurrence, or none when there is none |
| Text.StripTrailing | src/Main.java:114 | removing trailing empty strings keeps a prefix, ends non-empty and drops only empty strings |
| Text.Split | src/Main.java:114 | with no occurrence of the separator the string splits to itself; otherwise the pieces are the raw pieces with exactly the trailing empty ones dropped |
| Text.JoinRawSplit | src/Main.java:114 | joining the split pieces with the separator gives back the string |
| Text.RawSplitJoin | src/Main.java:114 | splitting a join of separator-free pieces gives back the pieces |
| Text.SplitJoin | src/Main.java:114-131 | Java's `split` inverts a join whose last piece is non-empty |
| Text.ParseInt | src/Main.java:104 | a parsed int lies in Java's int range |
| Text.ParseIntSpec | src/Main.java:104 | `parseInt` accepts exactly an optional sign followed by at least one decimal digit whose signed value fits in an int, and returns that signed decimal value |
| Text.ParseIntToString | src/Main.java:104 | parsing a printed int gives it back |
| Parser.ParseEach | src/Main.java:119-129 | parsing a list succeeds exactly when every item parses, and then yields each item's value in order |
| Parser.ParseCell | src/Main.java:123-126 | fewer than two comma fields fails; if the first two fields both parse, it succeeds; on success the row and column are those two fields read by `parseInt` |
| Parser.ParseTail | src/Main.java:131-133 | succeeds exactly when there are two comma fields, the first non-empty and the second an int; the operator is the first field's first character and the target the second field's value |
| Parser.ParseGroup | src/Main.java:114-135 | succeeds exactly when the line has an arrow, the `;`-fields before it all parse as cells and the text after it parses as operator and target; the cage then holds those values |
| Parser.ParseGroupNeedsArrow | src/Main.java:114-131 | a cage line without `->` is rejected |
| Parser.IsComment | src/Main.java:110 | a line is a comment exactly when its first character is `#` |
| Parser.Uncommented | src/Main.java:109-112 | the kept lines are exactly the lines not starting with `#` |
| Parser.ParseLines | src/Main.java:108-137 | on success there is at most one cage per line; `ParseLinesSucceeds` and `ParseLinesItems` give the exact characterisation |
| Parser.ParseLinesSucceeds | src/Main.java:109-137 | the cage loop succeeds exactly when every non-comment line parses |
| Parser.ParseLinesItems | src/Main.java:109-137 | on success there is one cage per non-comment line, in input order |
| Parser.ReadPuzzle | src/Main.java:101-140 | on success the data has a size line, the size is that line read by `parseInt` and is non-negative, and there are fewer cages than lines |
| Parser.ReadPuzzleSpec | src/Main.java:101-140 | reading succeeds exactly when the size line is a non-negative int and every non-comment cage line parses; the puzzle then has that size and those cages in order |
| Parser.CommentLineIgnored | src/Main.java:110-112 | inserting a comment line anywhere after the size line changes nothing |
| Parser.ParseFormatCell | src/Main.java:122-129 | a written cell with coordinates in int range, negative ones included, parses back to itself |
| Parser.ParseFormatGroup | src/Main.java:114-136 | a written cage line parses back to the cage, for any non-empty cage with coordinates and target in int range and an operator other than `,` |
| Parser.ParseFormatGroups | src/Main.java:108-137 | the written cage lines of writable cages read back as those cages, in order |
| Parser.FormatGroupNotComment | src/Main.java:110 | a written cage line is never taken for a comment |
| Parser.ReadFormat | src/Main.java:101-140 | reading a written puzzle gives back the same size and the same cages in the same order |

## Left out

- The GUI, `PuzzleData`, `Main.main`, `printGrid` and `getValueAt` are not part of this model. They are display and I/O only.
- The constructor, `addGroup` and `getN` only store fields. They are covered by the `Puzzle` datatype.
- Arithmetic overflow: Java's sums, products, `Math.abs` and `-` wrap at 32 bits; the model uses unbounded integers. Only hash codes wrap explicitly, through `Wrap32`.
- Search.Solve: tries the domain's values in ascending order. Java iterates a `HashSet<Integer>`, whose order is ascending for small values. Once `restoreDomains` has put back copied sets with smaller tables, the order can differ for larger n. The contracts hold for any order; only the particular solution found could differ.
- Search.Solve: completeness is not proved. A false result is not shown to mean that the puzzle has no solution.
- Search.SolvePuzzle: requires a well-formed puzzle. Every cage must be non-empty, lie on the grid and list no cell twice.
  - The model's notion of a solution asks every cage to be satisfied. So inputs where Java ignores a cage are excluded, not given Java's outcome.
  - Java never looks at an empty cage.
  - Java never looks at a cage whose only cell, listed once or more, is off the grid.
  - Cages with an off-grid cell and some other cell are covered under `ArcConsistency.AC3` below.
  - With a repeated cell, the cage checks would count that cell twice.
- ArcConsistency.AC3: requires every cage cell to be on the grid.
  - A cell off the grid has no domain.
  - Cage arcs join distinct cells only (`CSPPuzzleSolver.java` line 281). So an off-grid cell gets an arc only when its cage also holds a different cell.
  - Java throws a `NullPointerException` when it dequeues such an arc, unless AC-3 has already returned false.
- Constraints.CheckMultiplication: requires a non-zero value when the cell is in the cage. Java divides by zero there only when another cell of the cage is still empty, and the solver never tries 0.
- Constraints.IsValid: requires every cage holding the cell to lie on the grid. This is stronger than Java needs.
  - Java reads the grid for a cage only when the cage has `+` or `*`, or has `-` or `/` with exactly two cells.
  - It reads it only when no earlier check has already rejected the value.
  - The search calls `IsValid` only on well-formed puzzles, as required by `Search.SolvePuzzle`. So the extra requirement excludes no call the model makes.
- Search.SelectUnassigned: Java's `Integer.MAX_VALUE` sentinel is modelled as "no candidate yet". A domain never has that many values.
- Text.ParseInt: accepts only ASCII digits. Java's `parseInt` also accepts other Unicode decimal digits. `Text.ParseIntSpec` states exactly which strings are accepted and their values.
- Text.Split: models `split` only for literal separators without regular-expression metacharacters (`->`, `;`, `,` are such).
- Parser.ReadFormat: is stated for writable puzzles. The size must be non-negative and within int range, because a negative size is rejected on reading. Coordinates and the target must be within int range, because `parseInt` rejects anything else. The operator must not be `,`, because the line would then split into the wrong fields. Cages must be non-empty, because an empty cell list is written as an empty string, which reads back as one malformed cell.
- Running out of memory or stack on deep recursion is not modelled.

=== FILE: arcconsistency.dfy ===
/** AC-3: the arc-consistency pass run once before the search. It seeds a
    queue with every row, column and cage arc, then revises arcs until the
    queue drains or a domain becomes empty. */
module ArcConsistency {
  import opened Cells
  import opened Board
  import opened Constraints
  import opened Domains

  /** Some cage holds both cells. */
  predicate SameCage(groups: seq<Group>, c: Cell, d: Cell)
  {
    exists grp :: grp in groups && Shares(grp, c, d)
  }

  /** Two distinct cells constrained against each other by a row, a column or
      a cage: the arcs AC-3 works on. */
  predicate Linked(p: Puzzle, c: Cell, d: Cell)
  {
    SameLine(c, d, p.n) || (c != d && SameCage(p.groups, c, d))
  }

  lemma LinkedSymmetric(p: Puzzle, c: Cell, d: Cell)
    ensures Linked(p, c, d) == Linked(p, d, c)
  {
    if SameCage(p.groups, c, d) {
      var grp :| grp in p.groups && Shares(grp, c, d);
      assert Shares(grp, d, c);
    }
    if SameCage(p.groups, d, c) {
      var grp :| grp in p.groups && Shares(grp, d, c);
      assert Shares(grp, c, d);
    }
  }

  // ---------------------------------------------------------------------------
  // Queue seeding.
  // ---------------------------------------------------------------------------

  /** Arcs from `c` to the cells of its row in columns `k..n-1`, skipping `c`. */
  function RowArcs(c: Cell, n: int, k: int): (r: seq<Arc>)
    ensures forall a :: a in r <==>
              a.cell1 == c && a.cell2.row == c.row && k <= a.cell2.col < n && a.cell2.col != c.col
    decreases n - k
  {
    if k >= n then []
    else (if k != c.col then [Arc(c, Cell(c.row, k))] else []) + RowArcs(c, n, k + 1)
  }

  /** Arcs from `c` to the cells of its column in rows `k..n-1`, skipping `c`. */
  function ColArcs(c: Cell, n: int, k: int): (r: seq<Arc>)
    ensures forall a :: a in r <==>
              a.cell1 == c && a.cell2.col == c.col && k <= a.cell2.row < n && a.cell2.row != c.row
    decreases n - k
  {
    if k >= n then []
    else (if k != c.row then [Arc(c, Cell(k, c.col))] else []) + ColArcs(c, n, k + 1)
  }

  /** Row then column arcs of the cells `(i, j)..(i, n-1)`. */
  function SeedRow(n: int, i: int, j: int): (r: seq<Arc>)
    requires 0 <= i < n && 0 <= j
    ensures forall a :: a in r <==>
              a.cell1.row == i && j <= a.cell1.col && SameLine(a.cell1, a.cell2, n)
    decreases n - j
  {
    if j >= n then []
    else RowArcs(Cell(i, j), n, 0) + ColArcs(Cell(i, j), n, 0) + SeedRow(n, i, j + 1)
  }

  /** Row and column arcs of every cell in rows `i..n-1`, in row-major order. */
  function SeedLines(n: int, i: int): (r: seq<Arc>)
    requires 0 <= i
    ensures forall a :: a in r <==> i <= a.cell1.row && SameLine(a.cell1, a.cell2, n)
    decreases n - i
  {
    if i >= n then [] else SeedRow(n, i, 0) + SeedLines(n, i + 1)
  }

  /** Arcs from `c` to every other cell of `all`, in order. */
  function OutArcs(c: Cell, all: seq<Cell>): (r: seq<Arc>)
    ensures forall a :: a in r <==> a.cell1 == c && a.cell2 in all && a.cell2 != c
  {
    if all == [] then []
    else (if all[0] != c then [Arc(c, all[0])] else []) + OutArcs(c, all[1..])
  }

  /** Arcs between distinct cells of a cage, `firsts` being the sources left. */
  function CagePairs(firsts: seq<Cell>, all: seq<Cell>): (r: seq<Arc>)
    ensures forall a :: a in r <==> a.cell1 in firsts && a.cell2 in all && a.cell1 != a.cell2
  {
    if firsts == [] then [] else OutArcs(firsts[0], all) + CagePairs(firsts[1..], all)
  }

  /** Sharing a cage of a non-empty list means sharing its first cage or one
      of the rest. */
  lemma CageSplit(groups: seq<Group>)
    requires groups != []
    ensures forall c, d :: SameCage(groups, c, d) <==>
              Shares(groups[0], c, d) || SameCage(groups[1..], c, d)
  {
    forall c, d | SameCage(groups, c, d)
      ensures Shares(groups[0], c, d) || SameCage(groups[1..], c, d)
    {
      var grp :| grp in groups && Shares(grp, c, d);
      if grp != groups[0] {
        assert grp in groups[1..];
      }
    }
    forall c, d | SameCage(groups[1..], c, d) ensures SameCage(groups, c, d) {
      var grp :| grp in groups[1..] && Shares(grp, c, d);
      assert grp in groups;
    }
  }

  /** Both directions of every pair of distinct cells sharing a cage. */
  function CageArcs(groups: seq<Group>): (r: seq<Arc>)
    ensures forall a :: a in r <==> a.cell1 != a.cell2 && SameCage(groups, a.cell1, a.cell2)
  {
    if groups == [] then []
    else
      CageSplit(groups);
      CagePairs(groups[0].cells, groups[0].cells) + CageArcs(groups[1..])
  }

  /** The initial queue of `ac3`: every ordered pair of distinct cells sharing a
      row, a column or a cage. */
  function InitialArcs(p: Puzzle): (r: seq<Arc>)
    ensures forall a :: a in r <==> Linked(p, a.cell1, a.cell2)
  {
    SeedLines(p.n, 0) + CageArcs(p.groups)
  }

  // ---------------------------------------------------------------------------
  // Neighbours and re-enqueueing.
  // ---------------------------------------------------------------------------

  /** The other cells of `cell`'s row in columns `k..n-1`. */
  function RowMates(cell: Cell, n: int, k: int): (r: seq<Cell>)
    ensures forall d :: d in r <==> d.row == cell.row && k <= d.col < n && d.col != cell.col
    decreases n - k
  {
    if k >= n then []
    else (if k != cell.col then [Cell(cell.row, k)] else []) + RowMates(cell, n, k + 1)
  }

  /** The other cells of `cell`'s column in rows `k..n-1`. */
  function ColMates(cell: Cell, n: int, k: int): (r: seq<Cell>)
    ensures forall d :: d in r <==> d.col == cell.col && k <= d.row < n && d.row != cell.row
    decreases n - k
  {
    if k >= n then []
    else (if k != cell.row then [Cell(k, cell.col)] else []) + ColMates(cell, n, k + 1)
  }

  /** The other cells of every cage containing `cell`, cage by cage. */
  function CageMates(groups: seq<Group>, cell: Cell): (r: seq<Cell>)
    ensures forall d :: d in r <==> d != cell && SameCage(groups, cell, d)
  {
    if groups == [] then []
    else
      CageSplit(groups);
      (if cell in groups[0].cells then Without(groups[0].cells, cell) else [])
      + CageMates(groups[1..], cell)
  }

  /** `cells` in order, with every occurrence of `cell` left out. */
  function Without(cells: seq<Cell>, cell: Cell): (r: seq<Cell>)
    ensures forall d :: d in r <==> d in cells && d != cell
  {
    if cells == [] then []
    else (if cells[0] != cell then [cells[0]] else []) + Without(cells[1..], cell)
  }

  /** `getNeighbors`: the cell's row mates, column mates and cage mates. */
  function Neighbours(p: Puzzle, cell: Cell): (r: seq<Cell>)
    requires InRange(cell, p.n)
    ensures forall d :: d in r <==> Linked(p, cell, d)
  {
    RowMates(cell, p.n, 0) + ColMates(cell, p.n, 0) + CageMates(p.groups, cell)
  }

  /** The arcs `(nb, x)` for the neighbours `nb` other than `y`, in order. */
  function Requeue(ns: seq<Cell>, x: Cell, y: Cell): (r: seq<Arc>)
    ensures forall a :: a in r <==> a.cell2 == x && a.cell1 in ns && a.cell1 != y
  {
    if ns == [] then []
    else (if ns[0] != y then [Arc(ns[0], x)] else []) + Requeue(ns[1..], x, y)
  }

  // ---------------------------------------------------------------------------
  // Revision.
  // ---------------------------------------------------------------------------

  /** Some value of `d2` is consistent with `x` at the arc's source. */
  predicate Supported(groups: seq<Group>, a: Arc, x: int, d2: set<int>)
  {
    exists y :: y in d2 && IsConsistent(groups, a.cell1, x, a.cell2, y)
  }

  /** A subset equal to its superset or missing one of its members. */
  lemma SubsetGap(s: set<int>, t: set<int>)
    requires t <= s
    ensures s == t || exists v :: v in s && v !in t
  {
    if forall v :: v in s ==> v in t {
      assert s == t;
    }
  }

  /** Sets of values with the same members are equal. */
  lemma SameValues(s: set<int>, t: set<int>)
    requires forall v :: v in s <==> v in t
    ensures s == t
  {
    forall v ensures v in s <==> v in t {}
  }

  /** Some member of a non-empty set. */
  method Pick(s: set<int>) returns (x: int)
    requires s != {}
    ensures x in s
  {
    SubsetGap(s, {});
    x :| x in s;
  }

  /** The inner loop of `removeInconsistentValues`: scan the target's domain
      for a value consistent with `x`, stopping at the first one found. */
  method HasSupport(groups: seq<Group>, a: Arc, x: int, d2: set<int>) returns (found: bool)
    ensures found <==> Supported(groups, a, x, d2)
  {
    found := false;
    var ys := d2;
    while ys != {}
      invariant ys <= d2
      invariant forall y :: y in d2 && y !in ys ==> !IsConsistent(groups, a.cell1, x, a.cell2, y)
      decreases ys
    {
      var y := Pick(ys);
      if IsConsistent(groups, a.cell1, x, a.cell2, y) {
        return true;
      }
      ys := ys - {y};
    }
  }

  /** `removeInconsistentValues`: drop from the source's domain every value
      with no consistent partner in the target's domain. Only the source's
      domain changes, it only shrinks, and the result says whether it did. */
  method RemoveInconsistentValues(groups: seq<Group>, doms: Domains, a: Arc)
    returns (removed: bool, doms': Domains)
    requires a.cell1 in doms && a.cell2 in doms
    ensures doms'.Keys == doms.Keys
    ensures forall c :: c in doms && c != a.cell1 ==> doms'[c] == doms[c]
    ensures forall x :: x in doms'[a.cell1] <==>
              x in doms[a.cell1] && Supported(groups, a, x, doms[a.cell2])
    ensures removed <==> exists x :: x in doms[a.cell1] && !Supported(groups, a, x, doms[a.cell2])
  {
    var d1, d2 := doms[a.cell1], doms[a.cell2];
    var toRemove: set<int> := {};
    var rest := d1;
    while rest != {}
      invariant rest <= d1
      invariant forall x :: x in toRemove <==> x in d1 && x !in rest && !Supported(groups, a, x, d2)
      decreases rest
    {
      var x := Pick(rest);
      var found := HasSupport(groups, a, x, d2);
      if !found {
        toRemove := toRemove + {x};
      }
      rest := rest - {x};
    }
    removed := toRemove != {};
    if removed {
      var x := Pick(toRemove);
      assert x in d1 && !Supported(groups, a, x, d2);
    } else {
      forall x | x in d1 ensures Supported(groups, a, x, d2) {
        assert x !in toRemove;
      }
    }
    doms' := doms[a.cell1 := d1 - toRemove];
  }

  // ---------------------------------------------------------------------------
  // The worklist loop.
  // ---------------------------------------------------------------------------

  /** Every (cell, value) pair still in the store; it shrinks with each revision
      that removes something. */
  ghost function Pairs(doms: Domains): (r: set<(Cell, int)>)
  {
    set c, v | c in doms && v in doms[c] :: (c, v)
  }

  lemma PairsShrink(doms: Domains, c: Cell, s: set<int>)
    requires c in doms && s < doms[c]
    ensures Pairs(doms[c := s]) < Pairs(doms)
  {
    SubsetGap(doms[c], s);
    var v :| v in doms[c] && v !in s;
    assert (c, v) in Pairs(doms);
    assert (c, v) !in Pairs(doms[c := s]);
  }

  predicate NoneEmpty(doms: Domains)
  {
    forall c :: c in doms ==> doms[c] != {}
  }

  /** Every queued arc joins two linked cells. */
  predicate ArcsLinked(p: Puzzle, queue: seq<Arc>)
  {
    forall a :: a in queue ==> Linked(p, a.cell1, a.cell2)
  }

  /** Every value left at the arc's source has a consistent partner at its
      target. */
  ghost predicate ArcConsistent(groups: seq<Group>, doms: Domains, a: Arc)
  {
    a.cell1 in doms && a.cell2 in doms
    && forall x :: x in doms[a.cell1] ==> Supported(groups, a, x, doms[a.cell2])
  }

  /** The AC-3 loop invariant: an arc not waiting in the queue is consistent. */
  ghost predicate QueueCovers(p: Puzzle, doms: Domains, queue: seq<Arc>)
  {
    forall a: Arc :: Linked(p, a.cell1, a.cell2) ==> a in queue || ArcConsistent(p.groups, doms, a)
  }

  /** Revising the head arc `(x, y)` keeps the invariant, provided every arc
      `(z, x)` with `z != y` is queued again when `x`'s domain shrank. The
      reverse arc `(y, x)` needs no requeue because consistency is symmetric:
      a value of `x` supporting some value of `y` is itself supported. */
  lemma {:induction false} ReviseKeepsCover(p: Puzzle, doms: Domains, revised: Domains,
                                            queue: seq<Arc>, next: seq<Arc>)
    requires GroupsInRange(p) && Covers(doms, p.n)
    requires queue != [] && Linked(p, queue[0].cell1, queue[0].cell2)
    requires QueueCovers(p, doms, queue)
    requires revised.Keys == doms.Keys
    requires forall c :: c in doms && c != queue[0].cell1 ==> revised[c] == doms[c]
    requires forall v :: v in revised[queue[0].cell1] <==>
               v in doms[queue[0].cell1] && Supported(p.groups, queue[0], v, doms[queue[0].cell2])
    requires forall a :: a in queue[1..] ==> a in next
    requires revised[queue[0].cell1] != doms[queue[0].cell1] ==>
               forall z :: Linked(p, z, queue[0].cell1) && z != queue[0].cell2 ==> Arc(z, queue[0].cell1) in next
    ensures QueueCovers(p, revised, next)
  {
    var x, y := queue[0].cell1, queue[0].cell2;
    forall a: Arc | Linked(p, a.cell1, a.cell2) && a !in next
      ensures ArcConsistent(p.groups, revised, a)
    {
      LinkedInRange(p, a.cell1, a.cell2);
      if a == queue[0] {
        forall v | v in revised[x] ensures Supported(p.groups, a, v, revised[y]) {}
      } else {
        assert ArcConsistent(p.groups, doms, a);
        if a.cell1 == y && a.cell2 == x {
          forall b | b in revised[y] ensures Supported(p.groups, a, b, revised[x]) {
            var v :| v in doms[x] && IsConsistent(p.groups, y, b, x, v);
            ConsistencySymmetric(p.groups, y, b, x, v);
            assert Supported(p.groups, queue[0], v, doms[y]);
          }
        } else if a.cell2 == x {
          LinkedSymmetric(p, a.cell1, a.cell2);
          if revised[x] != doms[x] {
            assert false;
          }
        } else if a.cell1 == x {
          forall v | v in revised[x] ensures Supported(p.groups, a, v, revised[a.cell2]) {}
        }
      }
    }
  }

  /** Linked cells lie on the grid, so they have domains. */
  lemma LinkedInRange(p: Puzzle, c: Cell, d: Cell)
    requires GroupsInRange(p) && Linked(p, c, d)
    ensures InRange(c, p.n) && InRange(d, p.n)
  {
    if !SameLine(c, d, p.n) {
      var grp :| grp in p.groups && Shares(grp, c, d);
    }
  }

  /** One turn of the `ac3` loop: pop the head arc, revise it, and on a
      removal either report the emptied domain or queue the arcs into the
      revised cell from its other neighbours. */
  method ReviseHead(p: Puzzle, doms: Domains, queue: seq<Arc>)
    returns (emptied: bool, doms': Domains, queue': seq<Arc>)
    requires Covers(doms, p.n) && GroupsInRange(p)
    requires queue != [] && ArcsLinked(p, queue) && QueueCovers(p, doms, queue)
    ensures doms'.Keys == doms.Keys
    ensures forall c :: c in doms ==> doms'[c] <= doms[c]
    ensures emptied ==> exists c :: c in doms' && doms'[c] == {}
    ensures !emptied && NoneEmpty(doms) ==> NoneEmpty(doms')
    ensures !emptied ==> ArcsLinked(p, queue') && QueueCovers(p, doms', queue')
    ensures !emptied ==> Pairs(doms') < Pairs(doms) || (doms' == doms && |queue'| < |queue|)
  {
    var arc := queue[0];
    LinkedInRange(p, arc.cell1, arc.cell2);
    var removed, revised := RemoveInconsistentValues(p.groups, doms, arc);
    if removed {
      var x :| x in doms[arc.cell1] && !Supported(p.groups, arc, x, doms[arc.cell2]);
      assert x !in revised[arc.cell1];
      forall v | v in revised[arc.cell1] ensures v in doms[arc.cell1] {}
      PairsShrink(doms, arc.cell1, revised[arc.cell1]);
      assert revised == doms[arc.cell1 := revised[arc.cell1]];
      if revised[arc.cell1] == {} {
        return true, revised, queue;
      }
      var again := Requeue(Neighbours(p, arc.cell1), arc.cell1, arc.cell2);
      queue' := queue[1..] + again;
      forall z | Linked(p, z, arc.cell1) && z != arc.cell2 ensures Arc(z, arc.cell1) in queue' {
        LinkedSymmetric(p, z, arc.cell1);
        assert Arc(z, arc.cell1) in again;
      }
      forall a | a in again ensures Linked(p, a.cell1, a.cell2) {
        LinkedSymmetric(p, a.cell1, a.cell2);
      }
      ReviseKeepsCover(p, doms, revised, queue, queue');
      return false, revised, queue';
    } else {
      forall x ensures x in revised[arc.cell1] <==> x in doms[arc.cell1] {
        if x in doms[arc.cell1] {
          assert Supported(p.groups, arc, x, doms[arc.cell2]);
        }
      }
      SameValues(revised[arc.cell1], doms[arc.cell1]);
      assert revised == doms;
      ReviseKeepsCover(p, doms, doms, queue, queue[1..]);
      return false, doms, queue[1..];
    }
  }

  /** `ac3`: revise arcs until the queue drains (true) or a domain empties
      (false). Domains only shrink; on true no domain is empty unless one
      was empty to begin with, and every arc between linked cells is
      consistent. The loop terminates because each turn either removes a
      value from the store or shortens the queue. */
  method AC3(p: Puzzle, doms: Domains) returns (ok: bool, doms': Domains)
    requires Covers(doms, p.n) && GroupsInRange(p)
    ensures doms'.Keys == doms.Keys
    ensures forall c :: c in doms ==> doms'[c] <= doms[c]
    ensures !ok ==> exists c :: c in doms' && doms'[c] == {}
    ensures NoneEmpty(doms) ==> (ok <==> NoneEmpty(doms'))
    ensures ok ==> forall a: Arc :: Linked(p, a.cell1, a.cell2) ==> ArcConsistent(p.groups, doms', a)
  {
    var queue := InitialArcs(p);
    doms' := doms;
    while queue != []
      invariant doms'.Keys == doms.Keys
      invariant forall c :: c in doms ==> doms'[c] <= doms[c]
      invariant NoneEmpty(doms) ==> NoneEmpty(doms')
      invariant ArcsLinked(p, queue) && QueueCovers(p, doms', queue)
      decreases Pairs(doms'), |queue|
    {
      var emptied;
      emptied, doms', queue := ReviseHead(p, doms', queue);
      if emptied {
        return false, doms';
      }
    }
    ok := true;
  }
}

=== FILE: board.dfy ===
/** The puzzle's data: cages ("groups"), the puzzle description and the N×N
    grid of assigned values, where 0 means unassigned. */
module Board {
  import opened Cells

  /** A cage: its cells in the order given, an operator character and a target. */
  datatype Group = Group(cells: seq<Cell>, op: char, target: int)

  /** What the loader hands the solver: the grid size and the cages. */
  datatype Puzzle = Puzzle(n: int, groups: seq<Group>)

  /** Row-major grid of values; 0 is an unassigned cell. */
  type Grid = seq<seq<int>>

  predicate IsGrid(g: Grid, n: int)
  {
    |g| == n && forall i :: 0 <= i < n ==> |g[i]| == n
  }

  predicate InRange(c: Cell, n: int)
  {
    0 <= c.row < n && 0 <= c.col < n
  }

  /** Two distinct cells of an n×n grid that share a row or a column. */
  predicate SameLine(c: Cell, d: Cell, n: int)
  {
    InRange(c, n) && InRange(d, n) && c != d && (c.row == d.row || c.col == d.col)
  }

  /** `c` indexes an entry of `g`. */
  predicate OnBoard(g: Grid, c: Cell)
  {
    0 <= c.row < |g| && 0 <= c.col < |g[c.row]|
  }

  predicate AllOnBoard(g: Grid, cells: seq<Cell>)
  {
    forall c :: c in cells ==> OnBoard(g, c)
  }

  function At(g: Grid, c: Cell): (x: int)
    requires OnBoard(g, c)
  {
    g[c.row][c.col]
  }

  /** `grid[c.row][c.col] = v`. */
  function Assign(g: Grid, c: Cell, v: int): (r: Grid)
    requires OnBoard(g, c)
    ensures |r| == |g| && forall i :: 0 <= i < |g| ==> |r[i]| == |g[i]|
    ensures forall d :: OnBoard(g, d) <==> OnBoard(r, d)
    ensures At(r, c) == v
    ensures forall d :: OnBoard(g, d) && d != c ==> At(r, d) == At(g, d)
  {
    g[c.row := g[c.row][c.col := v]]
  }

  /** Writing back the value a cell held restores the grid exactly. */
  lemma AssignBack(g: Grid, c: Cell, v: int)
    requires OnBoard(g, c)
    ensures Assign(Assign(g, c, v), c, At(g, c)) == g
  {
    var r := Assign(Assign(g, c, v), c, At(g, c));
    assert |r| == |g|;
    forall i | 0 <= i < |g|
      ensures r[i] == g[i]
    {
      assert |r[i]| == |g[i]|;
      forall j | 0 <= j < |g[i]|
        ensures r[i][j] == g[i][j]
      {
        if i != c.row || j != c.col {
          assert At(r, Cell(i, j)) == At(g, Cell(i, j));
        }
      }
    }
  }

  /** The grid `new int[n][n]`: every entry 0. */
  function Zeros(n: nat): (g: Grid)
    ensures IsGrid(g, n)
    ensures forall c :: InRange(c, n) ==> At(g, c) == 0
  {
    seq(n, _ => seq(n, _ => 0))
  }

  /** Every coordinate pair of an n×n grid. */
  function AllCells(n: int): (s: set<Cell>)
    ensures forall c :: c in s <==> InRange(c, n)
  {
    var s := set i, j | 0 <= i < n && 0 <= j < n :: Cell(i, j);
    assert forall c :: InRange(c, n) ==> Cell(c.row, c.col) in s;
    s
  }

  /** The unassigned cells of a grid. */
  function ZeroCells(g: Grid, n: int): (s: set<Cell>)
    requires IsGrid(g, n)
    ensures forall c :: c in s <==> InRange(c, n) && At(g, c) == 0
  {
    set c | c in AllCells(n) && At(g, c) == 0
  }

  /** Assigning a non-zero value to an unassigned cell leaves strictly fewer
      unassigned cells: the search's recursion measure. */
  lemma AssignShrinksZeroCells(g: Grid, n: int, c: Cell, v: int)
    requires IsGrid(g, n) && InRange(c, n) && At(g, c) == 0 && v != 0
    ensures IsGrid(Assign(g, c, v), n)
    ensures ZeroCells(Assign(g, c, v), n) == ZeroCells(g, n) - {c}
  {
    var r := Assign(g, c, v);
    assert IsGrid(r, n);
    assert ZeroCells(r, n) == ZeroCells(g, n) - {c};
  }

  /** Every cage has at least one cell, all cells are on the grid and no cell
      is listed twice. */
  predicate WellFormed(p: Puzzle)
  {
    && p.n >= 0
    && forall grp :: grp in p.groups ==>
         && |grp.cells| >= 1
         && (forall c :: c in grp.cells ==> InRange(c, p.n))
         && (forall i, j :: 0 <= i < j < |grp.cells| ==> grp.cells[i] != grp.cells[j])
  }

  predicate GroupsInRange(p: Puzzle)
  {
    forall grp, c :: grp in p.groups && c in grp.cells ==> InRange(c, p.n)
  }
}

=== FILE: cells.dfy ===
/** Grid coordinates and the directed arcs AC-3 queues, with the value
    equality and hash codes of the Java classes `Cell` and `Arc`. */
module Cells {

  /** A grid position, 0-indexed. */
  datatype Cell = Cell(row: int, col: int)

  /** A directed constraint edge: values of `cell1` are checked against `cell2`. */
  datatype Arc = Arc(cell1: Cell, cell2: Cell)

  const TwoTo31: int := 0x8000_0000
  const TwoTo32: int := 0x1_0000_0000

  /** Java's 32-bit two's-complement wrap-around of an exact integer. */
  function Wrap32(x: int): (r: int)
    ensures -TwoTo31 <= r < TwoTo31
    ensures (x - r) % TwoTo32 == 0
  {
    var m := (x + TwoTo31) % TwoTo32;
    assert x + TwoTo31 == TwoTo32 * ((x + TwoTo31) / TwoTo32) + m;
    m - TwoTo31
  }

  /** `Objects.hash(a, b)`: `31 * (31 * 1 + a) + b` in 32-bit arithmetic. */
  function Hash2(a: int, b: int): (r: int)
    ensures -TwoTo31 <= r < TwoTo31
    ensures (31 * (31 + a) + b - r) % TwoTo32 == 0
  {
    Wrap32(31 * (31 + a) + b)
  }

  /** `Cell.equals`: the same row and the same column. */
  function CellEquals(a: Cell, b: Cell): (r: bool)
    ensures r <==> a == b
  {
    a.row == b.row && a.col == b.col
  }

  /** `Cell.hashCode`: the hash of the pair (row, col). */
  function CellHash(c: Cell): (r: int)
    ensures -TwoTo31 <= r < TwoTo31
    ensures (961 + 31 * c.row + c.col - r) % TwoTo32 == 0
    ensures 0 <= c.row < 0x100_0000 && 0 <= c.col < 0x100_0000 ==> r == 961 + 31 * c.row + c.col
  {
    Hash2(c.row, c.col)
  }

  /** `Arc.equals`: both endpoints equal, in the same direction. */
  function ArcEquals(x: Arc, y: Arc): (r: bool)
    ensures r <==> x == y
  {
    CellEquals(x.cell1, y.cell1) && CellEquals(x.cell2, y.cell2)
  }

  /** `Arc.hashCode`: the hash of the pair of endpoint hashes. */
  function ArcHash(a: Arc): (r: int)
    ensures -TwoTo31 <= r < TwoTo31
    ensures (31 * (31 + CellHash(a.cell1)) + CellHash(a.cell2) - r) % TwoTo32 == 0
  {
    Hash2(CellHash(a.cell1), CellHash(a.cell2))
  }

  /** Cell equality is an equivalence relation. */
  lemma CellEqualsIsEquivalence(a: Cell, b: Cell, c: Cell)
    ensures CellEquals(a, a)
    ensures CellEquals(a, b) == CellEquals(b, a)
    ensures CellEquals(a, b) && CellEquals(b, c) ==> CellEquals(a, c)
  {
  }

  /** Equal cells hash alike, as `HashMap<Cell, _>` requires. */
  lemma CellHashRespectsEquals(a: Cell, b: Cell)
    requires CellEquals(a, b)
    ensures CellHash(a) == CellHash(b)
  {
  }

  /** Arc equality is reflexive and directional: reversing an arc gives an
      equal arc only when both endpoints are the same cell. */
  lemma ArcEqualsDirectional(a: Cell, b: Cell)
    ensures ArcEquals(Arc(a, b), Arc(a, b))
    ensures ArcEquals(Arc(a, b), Arc(b, a)) <==> a == b
  {
  }

  /** Equal arcs hash alike. */
  lemma ArcHashRespectsEquals(x: Arc, y: Arc)
    requires ArcEquals(x, y)
    ensures ArcHash(x) == ArcHash(y)
  {
  }
}

=== FILE: constraints.dfy ===
/** The solver's pure predicates: row/column uniqueness, the four per-operator
    cage checks over a partially filled grid, `isValid`, and the coarser
    pairwise predicate AC-3 uses. */
module Constraints {
  import opened Cells
  import opened JavaInt
  import opened Board

  // ---------------------------------------------------------------------------
  // Reference definitions: what a fully filled cage must satisfy.
  // ---------------------------------------------------------------------------

  /** Sum of the grid values at `cells`; unassigned cells contribute 0. */
  function CageSum(cells: seq<Cell>, g: Grid): (r: int)
    requires AllOnBoard(g, cells)
  {
    if cells == [] then 0 else At(g, cells[0]) + CageSum(cells[1..], g)
  }

  /** Product of the assigned grid values at `cells`; unassigned cells are skipped. */
  function CageProduct(cells: seq<Cell>, g: Grid): (r: int)
    requires AllOnBoard(g, cells)
    ensures r != 0
  {
    if cells == [] then 1
    else (if At(g, cells[0]) == 0 then 1 else At(g, cells[0])) * CageProduct(cells[1..], g)
  }

  /** Every cell of the cage other than `cur` holds a value. */
  predicate OthersFilled(cells: seq<Cell>, g: Grid, cur: Cell)
    requires AllOnBoard(g, cells)
  {
    forall c :: c in cells && c != cur ==> At(g, c) != 0
  }

  /** Every cell of the cage holds a value. */
  predicate Filled(grp: Group, g: Grid)
    requires AllOnBoard(g, grp.cells)
  {
    forall c :: c in grp.cells ==> At(g, c) != 0
  }

  /** `hi / lo == t` exactly, in Java arithmetic, with `lo` non-zero. */
  predicate ExactQuotient(hi: int, lo: int, t: int)
  {
    lo != 0 && Div(hi, lo) == t && Rem(hi, lo) == 0
  }

  /** A two-cell cage whose values differ by `target`. */
  predicate SubtractionHolds(grp: Group, g: Grid)
    requires AllOnBoard(g, grp.cells)
  {
    |grp.cells| == 2 && Abs(At(g, grp.cells[0]) - At(g, grp.cells[1])) == grp.target
  }

  /** A two-cell cage whose larger value is `target` times its smaller one. */
  predicate DivisionHolds(grp: Group, g: Grid)
    requires AllOnBoard(g, grp.cells)
  {
    && |grp.cells| == 2
    && var a, b := At(g, grp.cells[0]), At(g, grp.cells[1]);
       ExactQuotient(Max(a, b), Min(a, b), grp.target)
  }

  /** The cage's arithmetic holds of the grid's values; an operator other than
      `+ * - /` imposes nothing. */
  predicate Satisfied(grp: Group, g: Grid)
    requires AllOnBoard(g, grp.cells)
  {
    match grp.op
    case '+' => CageSum(grp.cells, g) == grp.target
    case '*' => CageProduct(grp.cells, g) == grp.target
    case '-' => SubtractionHolds(grp, g)
    case '/' => DivisionHolds(grp, g)
    case _ => true
  }

  lemma {:induction false} CageSumFrame(cells: seq<Cell>, g: Grid, cur: Cell, v: int)
    requires AllOnBoard(g, cells) && OnBoard(g, cur) && cur !in cells
    ensures CageSum(cells, Assign(g, cur, v)) == CageSum(cells, g)
  {
    if cells != [] {
      CageSumFrame(cells[1..], g, cur, v);
    }
  }

  lemma {:induction false} CageProductFrame(cells: seq<Cell>, g: Grid, cur: Cell, v: int)
    requires AllOnBoard(g, cells) && OnBoard(g, cur) && cur !in cells
    ensures CageProduct(cells, Assign(g, cur, v)) == CageProduct(cells, g)
  {
    if cells != [] {
      CageProductFrame(cells[1..], g, cur, v);
    }
  }

  /** A cage's verdict and fill status depend only on its own cells: writing
      any other cell changes neither. */
  lemma SatisfiedFrame(grp: Group, g: Grid, cur: Cell, v: int)
    requires AllOnBoard(g, grp.cells) && OnBoard(g, cur) && cur !in grp.cells
    ensures AllOnBoard(Assign(g, cur, v), grp.cells)
    ensures Satisfied(grp, Assign(g, cur, v)) == Satisfied(grp, g)
    ensures Filled(grp, Assign(g, cur, v)) == Filled(grp, g)
  {
    CageSumFrame(grp.cells, g, cur, v);
    CageProductFrame(grp.cells, g, cur, v);
  }

  // ---------------------------------------------------------------------------
  // The running totals of checkAdditionConstraint / checkMultiplicationConstraint.
  // ---------------------------------------------------------------------------

  /** One pass over the cage, as the Java loop does it: the running sum with
      `v` in place of `cur`, and whether every other cell is filled. */
  function SumScan(cells: seq<Cell>, g: Grid, cur: Cell, v: int): (r: (int, bool))
    requires AllOnBoard(g, cells) && OnBoard(g, cur)
    ensures r.0 == CageSum(cells, Assign(g, cur, v))
    ensures r.1 <==> OthersFilled(cells, g, cur)
  {
    if cells == [] then (0, true)
    else
      var rest := SumScan(cells[1..], g, cur, v);
      if cells[0] == cur then (v + rest.0, rest.1)
      else (At(g, cells[0]) + rest.0, At(g, cells[0]) != 0 && rest.1)
  }

  /** The running product with `v` in place of `cur`, unfilled cells skipped,
      and whether every other cell is filled. */
  function ProductScan(cells: seq<Cell>, g: Grid, cur: Cell, v: int): (r: (int, bool))
    requires AllOnBoard(g, cells) && OnBoard(g, cur)
    ensures v != 0 || cur !in cells ==> r.0 == CageProduct(cells, Assign(g, cur, v)) && r.0 != 0
    ensures r.1 <==> OthersFilled(cells, g, cur)
  {
    if cells == [] then (1, true)
    else
      var rest := ProductScan(cells[1..], g, cur, v);
      if cells[0] == cur then (v * rest.0, rest.1)
      else if At(g, cells[0]) == 0 then (rest.0, false)
      else (At(g, cells[0]) * rest.0, rest.1)
  }

  // ---------------------------------------------------------------------------
  // The four cage checks.
  // ---------------------------------------------------------------------------

  /** `checkAdditionConstraint`: with every other cell filled the cage sum must
      hit the target; otherwise the partial sum must not exceed it. */
  function CheckAddition(grp: Group, g: Grid, cur: Cell, v: int): (r: bool)
    requires AllOnBoard(g, grp.cells) && OnBoard(g, cur)
    ensures OthersFilled(grp.cells, g, cur) ==>
              (r <==> CageSum(grp.cells, Assign(g, cur, v)) == grp.target)
    ensures !OthersFilled(grp.cells, g, cur) ==>
              (r <==> CageSum(grp.cells, Assign(g, cur, v)) <= grp.target)
  {
    var scan := SumScan(grp.cells, g, cur, v);
    if scan.1 then scan.0 == grp.target else scan.0 <= grp.target
  }

  /** `checkMultiplicationConstraint`: with every other cell filled the cage
      product must hit the target; otherwise the partial product must divide
      it. Java throws on a zero divisor, which arises only when `cur` is in the
      cage and `v` is 0. */
  function CheckMultiplication(grp: Group, g: Grid, cur: Cell, v: int): (r: bool)
    requires AllOnBoard(g, grp.cells) && OnBoard(g, cur)
    requires v != 0 || cur !in grp.cells
    ensures OthersFilled(grp.cells, g, cur) ==>
              (r <==> CageProduct(grp.cells, Assign(g, cur, v)) == grp.target)
    ensures !OthersFilled(grp.cells, g, cur) ==>
              (r <==> Rem(grp.target, CageProduct(grp.cells, Assign(g, cur, v))) == 0)
  {
    var scan := ProductScan(grp.cells, g, cur, v);
    if scan.1 then scan.0 == grp.target else Rem(grp.target, scan.0) == 0
  }

  /** The other cell of a two-cell cage, as `cells.get(0).equals(cur) ? cells.get(1) : cells.get(0)`. */
  function Partner(cells: seq<Cell>, cur: Cell): (o: Cell)
    requires |cells| == 2
    ensures o in cells
    ensures cur in cells && cells[0] != cells[1] ==> o != cur
  {
    if cells[0] == cur then cells[1] else cells[0]
  }

  /** `checkSubtractionConstraint`. */
  function CheckSubtraction(grp: Group, g: Grid, cur: Cell, v: int): (r: bool)
    requires AllOnBoard(g, grp.cells)
    ensures |grp.cells| != 2 ==> !r
    ensures |grp.cells| == 2 && At(g, Partner(grp.cells, cur)) == 0 ==> r
    ensures |grp.cells| == 2 && cur in grp.cells && grp.cells[0] != grp.cells[1]
            && OthersFilled(grp.cells, g, cur) ==>
              (r <==> SubtractionHolds(grp, Assign(g, cur, v)))
  {
    if |grp.cells| != 2 then false
    else
      var other := At(g, Partner(grp.cells, cur));
      if other == 0 then true
      else Abs(v - other) == grp.target || Abs(other - v) == grp.target
  }

  /** `checkDivisionConstraint`. */
  function CheckDivision(grp: Group, g: Grid, cur: Cell, v: int): (r: bool)
    requires AllOnBoard(g, grp.cells)
    ensures |grp.cells| != 2 ==> !r
    ensures |grp.cells| == 2 && At(g, Partner(grp.cells, cur)) == 0 ==> r
    ensures |grp.cells| == 2 && cur in grp.cells && grp.cells[0] != grp.cells[1]
            && OthersFilled(grp.cells, g, cur) ==>
              (r <==> DivisionHolds(grp, Assign(g, cur, v)))
  {
    if |grp.cells| != 2 then false
    else
      var other := At(g, Partner(grp.cells, cur));
      if other == 0 then true
      else ExactQuotient(Max(v, other), Min(v, other), grp.target)
  }

  /** The cage check `isValid` applies for the cage's operator. */
  function CageCheck(grp: Group, g: Grid, cur: Cell, v: int): (r: bool)
    requires AllOnBoard(g, grp.cells) && OnBoard(g, cur)
    requires grp.op == '*' ==> v != 0 || cur !in grp.cells
    ensures grp.op != '+' && grp.op != '*' && grp.op != '-' && grp.op != '/' ==> r
    ensures (grp.op == '-' || grp.op == '/') && |grp.cells| != 2 ==> !r
    ensures grp.op == '+' && CageSum(grp.cells, Assign(g, cur, v)) > grp.target ==> !r
  {
    match grp.op
    case '+' => CheckAddition(grp, g, cur, v)
    case '*' => CheckMultiplication(grp, g, cur, v)
    case '/' => CheckDivision(grp, g, cur, v)
    case '-' => CheckSubtraction(grp, g, cur, v)
    case _ => true
  }

  /** Once every other cell of a cage is filled, its check accepts `v` exactly
      when the cage, with `v` written in, satisfies its operator and target. */
  lemma CageCheckComplete(grp: Group, g: Grid, cur: Cell, v: int)
    requires AllOnBoard(g, grp.cells) && OnBoard(g, cur)
    requires cur in grp.cells && v != 0
    requires forall i, j :: 0 <= i < j < |grp.cells| ==> grp.cells[i] != grp.cells[j]
    requires OthersFilled(grp.cells, g, cur)
    ensures CageCheck(grp, g, cur, v) <==> Satisfied(grp, Assign(g, cur, v))
  {
    if grp.op == '-' || grp.op == '/' {
      if |grp.cells| == 2 {
        assert grp.cells[0] != grp.cells[1];
      }
    }
  }

  // ---------------------------------------------------------------------------
  // isValid
  // ---------------------------------------------------------------------------

  /** No other cell in `cell`'s row or column holds `v`. */
  ghost predicate LineFree(g: Grid, cell: Cell, v: int)
    requires IsGrid(g, |g|)
  {
    forall d :: SameLine(cell, d, |g|) ==> At(g, d) != v
  }

  /** The row/column loop of `isValid`, from index `i` on. */
  function LineScan(g: Grid, cell: Cell, v: int, i: nat): (r: bool)
    requires IsGrid(g, |g|) && InRange(cell, |g|) && i <= |g|
    ensures r <==> forall k :: i <= k < |g| ==>
                     (k != cell.col ==> g[cell.row][k] != v) && (k != cell.row ==> g[k][cell.col] != v)
    decreases |g| - i
  {
    if i == |g| then true
    else if g[cell.row][i] == v && i != cell.col then false
    else if g[i][cell.col] == v && i != cell.row then false
    else LineScan(g, cell, v, i + 1)
  }

  /** The index-by-index loop checks exactly the cells sharing a line with `cell`. */
  lemma LineScanFree(g: Grid, cell: Cell, v: int)
    requires IsGrid(g, |g|) && InRange(cell, |g|)
    ensures LineScan(g, cell, v, 0) <==> LineFree(g, cell, v)
  {
    if LineScan(g, cell, v, 0) {
      forall d | SameLine(cell, d, |g|) ensures At(g, d) != v {
        if d.row == cell.row {
          assert g[cell.row][d.col] != v;
        } else {
          assert g[d.row][cell.col] != v;
        }
      }
    }
    if LineFree(g, cell, v) {
      forall k | 0 <= k < |g|
        ensures (k != cell.col ==> g[cell.row][k] != v) && (k != cell.row ==> g[k][cell.col] != v)
      {
        if k != cell.col {
          assert SameLine(cell, Cell(cell.row, k), |g|);
        }
        if k != cell.row {
          assert SameLine(cell, Cell(k, cell.col), |g|);
        }
      }
    }
  }

  /** The cages containing `cell` lie on the grid, and none of them would
      make Java divide by zero. */
  predicate CagesUsable(groups: seq<Group>, g: Grid, cell: Cell, v: int)
  {
    forall grp :: grp in groups && cell in grp.cells ==>
      AllOnBoard(g, grp.cells) && (grp.op == '*' ==> v != 0)
  }

  /** The cage loop of `isValid`: every cage containing `cell` accepts `v`. */
  function CageScan(groups: seq<Group>, g: Grid, cell: Cell, v: int): (r: bool)
    requires OnBoard(g, cell) && CagesUsable(groups, g, cell, v)
    ensures r <==> forall grp :: grp in groups && cell in grp.cells ==> CageCheck(grp, g, cell, v)
  {
    if groups == [] then true
    else if cell in groups[0].cells && !CageCheck(groups[0], g, cell, v) then false
    else CageScan(groups[1..], g, cell, v)
  }

  /** `isValid`: `v` may go in `cell` when no other cell of its row or column
      holds `v` and every cage containing `cell` accepts it. */
  function IsValid(groups: seq<Group>, g: Grid, cell: Cell, v: int): (r: bool)
    requires IsGrid(g, |g|) && InRange(cell, |g|) && CagesUsable(groups, g, cell, v)
    ensures r <==> LineFree(g, cell, v)
                   && forall grp :: grp in groups && cell in grp.cells ==> CageCheck(grp, g, cell, v)
  {
    LineScanFree(g, cell, v);
    LineScan(g, cell, v, 0) && CageScan(groups, g, cell, v)
  }

  // ---------------------------------------------------------------------------
  // The pairwise predicate of AC-3.
  // ---------------------------------------------------------------------------

  /** `checkGroupConsistency`: `+` and `*` cages never prune a pair (AC-3
      leaves those operators to the search); `-` and `/` apply the two-cell
      test, and fail for cages without exactly two cells. */
  function CheckGroupConsistency(grp: Group, v1: int, v2: int): (r: bool)
    ensures grp.op != '-' && grp.op != '/' ==> r
    ensures grp.op == '-' ==> (r <==> |grp.cells| == 2 && Abs(v1 - v2) == grp.target)
    ensures grp.op == '/' && |grp.cells| != 2 ==> !r
  {
    match grp.op
    case '+' => true
    case '*' => true
    case '-' => |grp.cells| == 2 && (Abs(v1 - v2) == grp.target || Abs(v2 - v1) == grp.target)
    case '/' =>
      if |grp.cells| != 2 then false
      else ExactQuotient(Max(v1, v2), Min(v1, v2), grp.target)
    case _ => true
  }

  /** For the positive values a domain holds, a two-cell `/` cage admits a
      pair exactly when the larger value is the target times the smaller. */
  lemma DivisionPair(grp: Group, v1: int, v2: int)
    requires grp.op == '/' && v1 > 0 && v2 > 0
    ensures CheckGroupConsistency(grp, v1, v2) <==>
              |grp.cells| == 2 && Max(v1, v2) == grp.target * Min(v1, v2)
  {
    ExactDivision(Max(v1, v2), Min(v1, v2), grp.target);
  }

  /** Both cells belong to the cage. */
  predicate Shares(grp: Group, c1: Cell, c2: Cell)
  {
    c1 in grp.cells && c2 in grp.cells
  }

  /** The group loop of `isConsistent`: the first cage holding both cells decides. */
  function SharedScan(groups: seq<Group>, c1: Cell, v1: int, c2: Cell, v2: int): (r: bool)
    ensures !r ==> exists grp :: grp in groups && Shares(grp, c1, c2) && !CheckGroupConsistency(grp, v1, v2)
  {
    if groups == [] then true
    else if Shares(groups[0], c1, c2) then CheckGroupConsistency(groups[0], v1, v2)
    else SharedScan(groups[1..], c1, v1, c2, v2)
  }

  /** With no cage holding both cells, the scan accepts. */
  lemma {:induction false} SharedScanNone(groups: seq<Group>, c1: Cell, v1: int, c2: Cell, v2: int)
    requires forall k :: 0 <= k < |groups| ==> !Shares(groups[k], c1, c2)
    ensures SharedScan(groups, c1, v1, c2, v2)
  {
    if groups != [] {
      assert !Shares(groups[0], c1, c2);
      assert forall k :: 0 <= k < |groups| - 1 ==> groups[1..][k] == groups[k + 1];
      SharedScanNone(groups[1..], c1, v1, c2, v2);
    }
  }

  /** The first cage holding both cells decides the scan. */
  lemma {:induction false} SharedScanFirst(groups: seq<Group>, c1: Cell, v1: int, c2: Cell, v2: int, k: int)
    requires 0 <= k < |groups| && Shares(groups[k], c1, c2)
    requires forall j :: 0 <= j < k ==> !Shares(groups[j], c1, c2)
    ensures SharedScan(groups, c1, v1, c2, v2) == CheckGroupConsistency(groups[k], v1, v2)
  {
    if k > 0 {
      assert !Shares(groups[0], c1, c2);
      assert groups[1..][k - 1] == groups[k];
      assert forall j :: 0 <= j < k - 1 ==> groups[1..][j] == groups[j + 1];
      SharedScanFirst(groups[1..], c1, v1, c2, v2, k - 1);
    }
  }

  /** `isConsistent`: cells in one row or column are consistent exactly when
      their values differ, with no cage consulted; otherwise the scan over
      the cages decides (see `CageConsistency`). */
  function IsConsistent(groups: seq<Group>, c1: Cell, v1: int, c2: Cell, v2: int): (r: bool)
    ensures c1.row == c2.row || c1.col == c2.col ==> (r <==> v1 != v2)
  {
    if c1.row == c2.row || c1.col == c2.col then v1 != v2
    else SharedScan(groups, c1, v1, c2, v2)
  }

  /** Off the lines, the first cage holding both cells decides
      `isConsistent`, and cells sharing no cage are unconstrained. */
  lemma CageConsistency(groups: seq<Group>, c1: Cell, v1: int, c2: Cell, v2: int)
    requires c1.row != c2.row && c1.col != c2.col
    ensures (forall k :: 0 <= k < |groups| ==> !Shares(groups[k], c1, c2)) ==>
              IsConsistent(groups, c1, v1, c2, v2)
    ensures forall k :: 0 <= k < |groups| && Shares(groups[k], c1, c2)
                        && (forall j :: 0 <= j < k ==> !Shares(groups[j], c1, c2)) ==>
                          IsConsistent(groups, c1, v1, c2, v2) == CheckGroupConsistency(groups[k], v1, v2)
  {
    if forall k :: 0 <= k < |groups| ==> !Shares(groups[k], c1, c2) {
      SharedScanNone(groups, c1, v1, c2, v2);
    }
    forall k | 0 <= k < |groups| && Shares(groups[k], c1, c2)
                && (forall j :: 0 <= j < k ==> !Shares(groups[j], c1, c2))
      ensures IsConsistent(groups, c1, v1, c2, v2) == CheckGroupConsistency(groups[k], v1, v2)
    {
      SharedScanFirst(groups, c1, v1, c2, v2, k);
    }
  }

  /** The pairwise cage test does not care which cell is which. */
  lemma GroupConsistencySymmetric(grp: Group, v1: int, v2: int)
    ensures CheckGroupConsistency(grp, v1, v2) == CheckGroupConsistency(grp, v2, v1)
  {
    assert Max(v1, v2) == Max(v2, v1) && Min(v1, v2) == Min(v2, v1);
  }

  lemma {:induction false} SharedScanSymmetric(groups: seq<Group>, c1: Cell, v1: int, c2: Cell, v2: int)
    ensures SharedScan(groups, c1, v1, c2, v2) == SharedScan(groups, c2, v2, c1, v1)
  {
    if groups != [] {
      if Shares(groups[0], c1, c2) {
        GroupConsistencySymmetric(groups[0], v1, v2);
      } else {
        SharedScanSymmetric(groups[1..], c1, v1, c2, v2);
      }
    }
  }

  /** `isConsistent` is symmetric: swapping the two (cell, value) pairs gives
      the same answer. AC-3 relies on this when it skips re-enqueueing the
      reverse of the arc it just revised. */
  lemma ConsistencySymmetric(groups: seq<Group>, c1: Cell, v1: int, c2: Cell, v2: int)
    ensures IsConsistent(groups, c1, v1, c2, v2) == IsConsistent(groups, c2, v2, c1, v1)
  {
    SharedScanSymmetric(groups, c1, v1, c2, v2);
  }

  /** For a `-` or `/` cage, the pairwise predicate is the search's cage check
      once the partner holds its value: AC-3 and the search agree on these
      operators. */
  lemma ArcAgreesWithCage(grp: Group, g: Grid, c1: Cell, v1: int, c2: Cell)
    requires grp.op == '-' || grp.op == '/'
    requires AllOnBoard(g, grp.cells) && c1 in grp.cells && c2 in grp.cells && c1 != c2
    requires At(g, c2) != 0
    ensures CageCheck(grp, g, c1, v1) == CheckGroupConsistency(grp, v1, At(g, c2))
  {
    if |grp.cells| == 2 {
      assert Partner(grp.cells, c1) == c2;
    }
  }
}

=== FILE: domains.dfy ===
/** The domain store: for each cell the values still possible for it, with the
    save-then-restore journal that forward checking uses to undo its edits. */
module Domains {
  import opened Cells
  import opened Board

  type Domains = map<Cell, set<int>>

  /** The values `1..n`, the domain every cell starts from. */
  function Values(n: int): (s: set<int>)
    ensures forall v :: v in s <==> 1 <= v <= n
    ensures n >= 0 ==> |s| == n
  {
    if n <= 0 then {} else Values(n - 1) + {n}
  }

  /** Every cell of the grid has a domain. */
  ghost predicate Covers(doms: Domains, n: int)
  {
    forall c :: InRange(c, n) ==> c in doms
  }

  /** Every domain value lies in `1..n`. */
  predicate ValuesIn(doms: Domains, n: int)
  {
    forall c, v :: c in doms && v in doms[c] ==> 1 <= v <= n
  }

  /** `initializeDomains`: each of the n×n cells may take any of the n values `1..n`. */
  function InitialDomains(n: nat): (d: Domains)
    ensures forall c :: c in d <==> InRange(c, n)
    ensures forall c, v :: c in d ==> (v in d[c] <==> 1 <= v <= n)
    ensures forall c :: c in d ==> |d[c]| == n
  {
    map c | c in AllCells(n) :: Values(n)
  }

  /** The journal of one forward-checking step, relative to the store `orig`
      it started from: the store keeps its keys, `saved` holds the original
      domain of every cell it names, and a cell it does not name is untouched. */
  predicate Journal(orig: Domains, doms: Domains, saved: Domains)
  {
    && doms.Keys == orig.Keys
    && saved.Keys <= orig.Keys
    && (forall c :: c in saved ==> saved[c] == orig[c])
    && (forall c :: c in orig && c !in saved ==> doms[c] == orig[c])
  }

  /** `updateDomain`: record the cell's domain in the journal on first touch,
      then remove `v` from it. */
  function UpdateDomain(doms: Domains, saved: Domains, c: Cell, v: int): (r: (Domains, Domains))
    requires c in doms
    ensures r.0.Keys == doms.Keys && r.0[c] == doms[c] - {v}
    ensures forall d :: d in doms && d != c ==> r.0[d] == doms[d]
    ensures r.1.Keys == saved.Keys + {c}
    ensures forall d :: d in saved ==> r.1[d] == saved[d]
    ensures c !in saved ==> r.1[c] == doms[c]
  {
    var saved' := if c in saved then saved else saved[c := doms[c]];
    (doms[c := doms[c] - {v}], saved')
  }

  /** An update keeps the journal exact, and only `c` loses `v`. */
  lemma UpdateKeepsJournal(orig: Domains, doms: Domains, saved: Domains, c: Cell, v: int)
    requires Journal(orig, doms, saved) && c in doms
    ensures Journal(orig, UpdateDomain(doms, saved, c, v).0, UpdateDomain(doms, saved, c, v).1)
    ensures UpdateDomain(doms, saved, c, v).1.Keys == saved.Keys + {c}
    ensures UpdateDomain(doms, saved, c, v).0[c] == doms[c] - {v}
    ensures forall d :: d in doms && d != c ==> UpdateDomain(doms, saved, c, v).0[d] == doms[d]
  {
  }

  /** `restoreDomains`: put every journalled domain back. */
  function RestoreDomains(doms: Domains, saved: Domains): (r: Domains)
    ensures r.Keys == doms.Keys + saved.Keys
    ensures forall c :: c in saved ==> r[c] == saved[c]
    ensures forall c :: c in doms && c !in saved ==> r[c] == doms[c]
  {
    doms + saved
  }

  /** Restoring from an exact journal gives back the original store. */
  lemma RestoreUndoes(orig: Domains, doms: Domains, saved: Domains)
    requires Journal(orig, doms, saved)
    ensures RestoreDomains(doms, saved) == orig
  {
    var r := RestoreDomains(doms, saved);
    assert r.Keys == orig.Keys;
    forall c | c in orig
      ensures r[c] == orig[c]
    {
    }
  }

  // ---------------------------------------------------------------------------
  // Forward checking.
  // ---------------------------------------------------------------------------

  /** The unassigned cells sharing a row or a column with `cell`. */
  function LineNeighbours(g: Grid, cell: Cell): (s: set<Cell>)
    requires IsGrid(g, |g|) && InRange(cell, |g|)
    ensures forall d :: d in s <==> SameLine(cell, d, |g|) && At(g, d) == 0
  {
    set d | d in AllCells(|g|) && SameLine(cell, d, |g|) && At(g, d) == 0
  }

  /** `d` is a line neighbour that forward checking reaches before row index
      `ri` of the row scan and `ci` of the column scan. */
  predicate Reached(g: Grid, cell: Cell, ri: int, ci: int, d: Cell)
    requires IsGrid(g, |g|) && InRange(cell, |g|)
  {
    || (d.row == cell.row && 0 <= d.col < ri && d.col < |g| && d.col != cell.col && g[cell.row][d.col] == 0)
    || (d.col == cell.col && 0 <= d.row < ci && d.row < |g| && d.row != cell.row && g[d.row][cell.col] == 0)
  }

  /** The state forward checking keeps between two neighbours: an exact
      journal whose cells have each lost `v` and are still non-empty. */
  ghost predicate Pruned(orig: Domains, doms: Domains, saved: Domains, v: int)
  {
    && Journal(orig, doms, saved)
    && (forall c :: c in saved ==> doms[c] == orig[c] - {v} && |doms[c]| > 0)
  }

  /** The state forward checking stops in: an exact journal whose cells have
      each lost `v`, one of which is now empty. */
  ghost predicate Failed(orig: Domains, doms: Domains, saved: Domains, v: int)
  {
    && Journal(orig, doms, saved)
    && (forall c :: c in saved ==> doms[c] == orig[c] - {v})
    && (exists c :: c in saved && |doms[c]| == 0)
  }

  /** `updateDomain` on the neighbour `nb`, followed by the emptiness test. */
  method Touch(ghost orig: Domains, doms: Domains, saved: Domains, nb: Cell, v: int)
    returns (emptied: bool, doms': Domains, saved': Domains)
    requires Pruned(orig, doms, saved, v) && nb in doms && nb !in saved
    ensures saved'.Keys == saved.Keys + {nb}
    ensures emptied ==> Failed(orig, doms', saved', v)
    ensures !emptied ==> Pruned(orig, doms', saved', v)
  {
    UpdateKeepsJournal(orig, doms, saved, nb, v);
    var upd := UpdateDomain(doms, saved, nb, v);
    doms', saved' := upd.0, upd.1;
    assert doms[nb] == orig[nb];
    forall c | c in saved'
      ensures doms'[c] == orig[c] - {v}
      ensures c != nb ==> |doms'[c]| > 0
    {
      if c != nb {
        assert doms'[c] == doms[c];
      }
    }
    emptied := |doms'[nb]| == 0;
  }

  /** The cells `Reached` names, as a set. */
  function ReachSet(g: Grid, cell: Cell, ri: int, ci: int): (s: set<Cell>)
    requires IsGrid(g, |g|) && InRange(cell, |g|)
    ensures forall d :: d in s <==> Reached(g, cell, ri, ci, d)
  {
    set d | d in AllCells(|g|) && Reached(g, cell, ri, ci, d)
  }

  /** Passing column `i` of the row scan adds that cell when it is an
      unassigned neighbour, and nothing otherwise. */
  lemma ReachedRowStep(g: Grid, cell: Cell, i: int)
    requires IsGrid(g, |g|) && InRange(cell, |g|) && 0 <= i < |g|
    ensures i != cell.col && g[cell.row][i] == 0 ==>
              Cell(cell.row, i) !in ReachSet(g, cell, i, i)
              && ReachSet(g, cell, i + 1, i) == ReachSet(g, cell, i, i) + {Cell(cell.row, i)}
    ensures !(i != cell.col && g[cell.row][i] == 0) ==>
              ReachSet(g, cell, i + 1, i) == ReachSet(g, cell, i, i)
  {
    var nb := Cell(cell.row, i);
    var eligible := i != cell.col && g[cell.row][i] == 0;
    var before, after := ReachSet(g, cell, i, i), ReachSet(g, cell, i + 1, i);
    forall d ensures d in after <==> d in before || (eligible && d == nb) {}
    if eligible {
      assert after == before + {nb};
    } else {
      assert after == before;
    }
  }

  /** Passing row `i` of the column scan, likewise. */
  lemma ReachedColStep(g: Grid, cell: Cell, i: int)
    requires IsGrid(g, |g|) && InRange(cell, |g|) && 0 <= i < |g|
    ensures i != cell.row && g[i][cell.col] == 0 ==>
              Cell(i, cell.col) !in ReachSet(g, cell, i + 1, i)
              && ReachSet(g, cell, i + 1, i + 1) == ReachSet(g, cell, i + 1, i) + {Cell(i, cell.col)}
    ensures !(i != cell.row && g[i][cell.col] == 0) ==>
              ReachSet(g, cell, i + 1, i + 1) == ReachSet(g, cell, i + 1, i)
  {
    var nb := Cell(i, cell.col);
    var eligible := i != cell.row && g[i][cell.col] == 0;
    var before, after := ReachSet(g, cell, i + 1, i), ReachSet(g, cell, i + 1, i + 1);
    forall d ensures d in after <==> d in before || (eligible && d == nb) {}
    if eligible {
      assert after == before + {nb};
    } else {
      assert after == before;
    }
  }

  /** The row half of one `forwardCheck` iteration: the cell in column `i`
      of `cell`'s row. */
  method RowStep(g: Grid, cell: Cell, v: int, i: int, ghost orig: Domains, doms: Domains, saved: Domains)
    returns (emptied: bool, doms': Domains, saved': Domains)
    requires IsGrid(g, |g|) && InRange(cell, |g|) && Covers(orig, |g|) && 0 <= i < |g|
    requires Pruned(orig, doms, saved, v) && saved.Keys == ReachSet(g, cell, i, i)
    ensures saved'.Keys == ReachSet(g, cell, i + 1, i)
    ensures emptied ==> Failed(orig, doms', saved', v)
    ensures !emptied ==> Pruned(orig, doms', saved', v)
  {
    ReachedRowStep(g, cell, i);
    if i != cell.col && g[cell.row][i] == 0 {
      emptied, doms', saved' := Touch(orig, doms, saved, Cell(cell.row, i), v);
    } else {
      emptied, doms', saved' := false, doms, saved;
    }
  }

  /** The column half of one `forwardCheck` iteration: the cell in row `i`
      of `cell`'s column. */
  method ColStep(g: Grid, cell: Cell, v: int, i: int, ghost orig: Domains, doms: Domains, saved: Domains)
    returns (emptied: bool, doms': Domains, saved': Domains)
    requires IsGrid(g, |g|) && InRange(cell, |g|) && Covers(orig, |g|) && 0 <= i < |g|
    requires Pruned(orig, doms, saved, v) && saved.Keys == ReachSet(g, cell, i + 1, i)
    ensures saved'.Keys == ReachSet(g, cell, i + 1, i + 1)
    ensures emptied ==> Failed(orig, doms', saved', v)
    ensures !emptied ==> Pruned(orig, doms', saved', v)
  {
    ReachedColStep(g, cell, i);
    if i != cell.row && g[i][cell.col] == 0 {
      emptied, doms', saved' := Touch(orig, doms, saved, Cell(i, cell.col), v);
    } else {
      emptied, doms', saved' := false, doms, saved;
    }
  }

  /** Once both scans have passed the last index, the cells reached are
      exactly the line neighbours. */
  lemma ReachedAll(g: Grid, cell: Cell, ri: int, ci: int)
    requires IsGrid(g, |g|) && InRange(cell, |g|) && ri <= |g| && ci <= |g|
    ensures ReachSet(g, cell, ri, ci) <= LineNeighbours(g, cell)
    ensures ri == |g| && ci == |g| ==> ReachSet(g, cell, ri, ci) == LineNeighbours(g, cell)
  {
    var r, l := ReachSet(g, cell, ri, ci), LineNeighbours(g, cell);
    forall d | d in r ensures d in l {}
    if ri == |g| && ci == |g| {
      forall d ensures d in r <==> d in l {}
      assert r == l;
    }
  }

  /** `forwardCheck`: remove `v` from the domain of every unassigned cell in
      `cell`'s row and column, journalling each first touch, and stop at the
      first domain that becomes empty. */
  method ForwardCheck(g: Grid, doms: Domains, cell: Cell, v: int)
    returns (ok: bool, doms': Domains, saved: Domains)
    requires IsGrid(g, |g|) && InRange(cell, |g|) && Covers(doms, |g|)
    ensures Journal(doms, doms', saved)
    ensures saved.Keys <= LineNeighbours(g, cell)
    ensures forall c :: c in saved ==> doms'[c] == doms[c] - {v}
    ensures ok ==> saved.Keys == LineNeighbours(g, cell)
    ensures ok ==> forall c :: c in saved ==> |doms'[c]| > 0
    ensures !ok ==> exists c :: c in saved && |doms'[c]| == 0
  {
    var n := |g|;
    doms' := doms;
    saved := map[];
    forall d ensures d !in ReachSet(g, cell, 0, 0) {}
    assert saved.Keys == ReachSet(g, cell, 0, 0);
    var i := 0;
    while i < n
      invariant 0 <= i <= n
      invariant Pruned(doms, doms', saved, v)
      invariant saved.Keys == ReachSet(g, cell, i, i)
    {
      var emptied;
      emptied, doms', saved := RowStep(g, cell, v, i, doms, doms', saved);
      if emptied {
        ReachedAll(g, cell, i + 1, i);
        ok := false;
        return;
      }
      emptied, doms', saved := ColStep(g, cell, v, i, doms, doms', saved);
      if emptied {
        ReachedAll(g, cell, i + 1, i + 1);
        ok := false;
        return;
      }
      i := i + 1;
    }
    ReachedAll(g, cell, n, n);
    ok := true;
  }
}

=== FILE: javaint.dfy ===
/** Java's integer division and remainder, which truncate toward zero
    (Dafny's `/` and `%` are Euclidean). */
module JavaInt {

  function Abs(x: int): (r: int)
    ensures r >= 0 && (r == x || r == -x)
  {
    if x < 0 then -x else x
  }

  function Max(a: int, b: int): (r: int)
    ensures r >= a && r >= b && (r == a || r == b)
  {
    if a >= b then a else b
  }

  function Min(a: int, b: int): (r: int)
    ensures r <= a && r <= b && (r == a || r == b)
  {
    if a <= b then a else b
  }

  /** Java `a / b`: the quotient of the magnitudes, negated when the signs differ. */
  function Div(a: int, b: int): (q: int)
    requires b != 0
    ensures a >= 0 && b > 0 ==> q == a / b
    ensures Abs(q) == Abs(a) / Abs(b)
    ensures (a < 0) == (b < 0) ==> q >= 0
    ensures (a < 0) != (b < 0) ==> q <= 0
  {
    var q := Abs(a) / Abs(b);
    NatDivision(Abs(a), Abs(b));
    if (a < 0) == (b < 0) then q else -q
  }

  /** Java `a % b`: the remainder of the magnitudes, with the sign of `a`. */
  function Rem(a: int, b: int): (r: int)
    requires b != 0
    ensures a >= 0 && b > 0 ==> r == a % b
    ensures Abs(r) < Abs(b)
    ensures a >= 0 ==> r >= 0
    ensures a <= 0 ==> r <= 0
    ensures Div(a, b) * b + r == a
  {
    var q, r := Abs(a) / Abs(b), Abs(a) % Abs(b);
    NatDivision(Abs(a), Abs(b));
    SignedSplit(a, b);
    assert Div(a, b) == if (a < 0) == (b < 0) then q else -q;
    if a < 0 then -r else r
  }

  /** Giving the quotient and the remainder of the magnitudes Java's signs
      rebuilds the dividend. */
  lemma SignedSplit(a: int, b: int)
    requires b != 0
    ensures var q, r := Abs(a) / Abs(b), Abs(a) % Abs(b);
            (if (a < 0) == (b < 0) then q else -q) * b + (if a < 0 then -r else r) == a
  {
    var m, d := Abs(a), Abs(b);
    var q, r := m / d, m % d;
    NatDivision(m, d);
    if a >= 0 && b < 0 {
      assert (-q) * b == q * d;
    } else if a < 0 && b > 0 {
      assert (-q) * b == -(q * d);
    } else if a < 0 && b < 0 {
      assert q * b == -(q * d);
    }
  }

  /** Division of magnitudes: a non-negative quotient and a remainder below
      the divisor that together rebuild the dividend. */
  lemma NatDivision(m: int, d: int)
    requires m >= 0 && d > 0
    ensures m / d >= 0 && 0 <= m % d < d && (m / d) * d + m % d == m
  {
  }

  /** A multiple of a positive `b` by at least one is at least `b`. */
  lemma MulAtLeast(k: int, b: int)
    requires k >= 1 && b > 0
    ensures k * b >= b
  {
  }

  /** For a non-negative `a` and a positive `b`, `a / b == t && a % b == 0`
      holds exactly when `a` is `t` times `b`. */
  lemma ExactDivision(a: int, b: int, t: int)
    requires a >= 0 && b > 0
    ensures (Div(a, b) == t && Rem(a, b) == 0) <==> a == t * b
  {
    var q, r := a / b, a % b;
    NatDivision(a, b);
    assert Div(a, b) == q && Rem(a, b) == r;
    if a == t * b {
      var d := t - q;
      assert d * b == t * b - q * b;
      if d >= 1 {
        MulAtLeast(d, b);
        assert false;
      } else if d <= -1 {
        MulAtLeast(-d, b);
        assert false;
      }
    }
  }
}

=== FILE: parser.dfy ===
/** `Main.readPuzzle`: the first line is the grid size, every later line not
    starting with `#` is one cage written `r,c;r,c;...->op,target`. Every
    place where Java would throw (a missing line or field, a malformed or
    out-of-range integer, an empty operator, a negative size) is a Failure. */
module Parser {
  import opened Wrappers
  import opened Cells
  import opened Board
  import opened Text

  /** `startsWith("#")`: the line's first character is `#`. */
  predicate IsComment(line: string)
    ensures IsComment(line) <==> |line| >= 1 && line[0] == '#'
  {
    StartsWith(line, "#")
  }

  /** One `r,c` entry: the first two comma-separated fields as ints; any
      further fields are ignored, as Java only reads indices 0 and 1. */
  function ParseCell(text: string): (r: Result<Cell>)
    ensures |Split(text, ",")| < 2 ==> r.Failure?
    ensures r.Success? ==> && ParseInt(Split(text, ",")[0]) == Some(r.value.row)
                           && ParseInt(Split(text, ",")[1]) == Some(r.value.col)
    ensures (|Split(text, ",")| >= 2 && ParseInt(Split(text, ",")[0]).Some?
             && ParseInt(Split(text, ",")[1]).Some?) ==> r.Success?
  {
    var cords := Split(text, ",");
    if |cords| < 2 then Failure("missing coordinate")
    else match (ParseInt(cords[0]), ParseInt(cords[1]))
      case (Some(row), Some(col)) => Success(Cell(row, col))
      case _ => Failure("malformed coordinate")
  }

  /** Parse every text in order with `parse`; fail as soon as one fails. */
  function ParseEach<T>(texts: seq<string>, parse: string -> Result<T>): (r: Result<seq<T>>)
    ensures r.Success? <==> forall i :: 0 <= i < |texts| ==> parse(texts[i]).Success?
    ensures r.Success? ==> |r.value| == |texts|
                           && forall i :: 0 <= i < |texts| ==> parse(texts[i]) == Success(r.value[i])
  {
    if texts == [] then Success([])
    else
      match parse(texts[0])
      case Failure(e) => Failure(e)
      case Success(x) =>
        match ParseEach(texts[1..], parse)
        case Failure(e) => Failure(e)
        case Success(xs) =>
          assert forall i :: 1 <= i < |texts| ==> texts[i] == texts[1..][i - 1];
          Success([x] + xs)
  }

  /** The text after `->`: the operator is the first character of the first
      comma-separated field, the target is the second field. */
  function ParseTail(text: string): (r: Result<(char, int)>)
    ensures r.Success? <==> && |Split(text, ",")| >= 2 && |Split(text, ",")[0]| > 0
                            && ParseInt(Split(text, ",")[1]).Some?
    ensures r.Success? ==> && r.value.0 == Split(text, ",")[0][0]
                           && Some(r.value.1) == ParseInt(Split(text, ",")[1])
  {
    var result := Split(text, ",");
    if |result| == 0 || |result[0]| == 0 then Failure("missing operator")
    else if |result| < 2 then Failure("missing target")
    else
      match ParseInt(result[1])
      case None => Failure("malformed target")
      case Some(t) => Success((result[0][0], t))
  }

  /** One cage line: the `;`-separated cells before `->`, then the operator
      and target after it. The cells are read first, as in Java. */
  function ParseGroup(line: string): (r: Result<Group>)
    ensures r.Success? ==> && |Split(line, "->")| >= 2
                           && ParseEach(Split(Split(line, "->")[0], ";"), ParseCell) == Success(r.value.cells)
                           && ParseTail(Split(line, "->")[1]) == Success((r.value.op, r.value.target))
    ensures (|Split(line, "->")| >= 2 && ParseEach(Split(Split(line, "->")[0], ";"), ParseCell).Success?
             && ParseTail(Split(line, "->")[1]).Success?) ==> r.Success?
  {
    var halves := Split(line, "->");
    if |halves| == 0 then Failure("empty line")
    else
      match ParseEach(Split(halves[0], ";"), ParseCell)
      case Failure(e) => Failure(e)
      case Success(cells) =>
        if |halves| < 2 then Failure("missing ->")
        else
          match ParseTail(halves[1])
          case Failure(e) => Failure(e)
          case Success(tail) => Success(Group(cells, tail.0, tail.1))
  }

  /** A cage line without `->` is rejected: Java would index past the end
      of the split result. */
  lemma ParseGroupNeedsArrow(line: string)
    requires IndexOf(line, "->") == None
    ensures ParseGroup(line).Failure?
  {
    assert RawSplit(line, "->") == [line];
  }

  /** The lines that are not comments, in order. */
  function Uncommented(lines: seq<string>): (r: seq<string>)
    ensures |r| <= |lines|
    ensures forall l :: l in r <==> l in lines && !IsComment(l)
  {
    if lines == [] then []
    else (if IsComment(lines[0]) then [] else [lines[0]]) + Uncommented(lines[1..])
  }

  /** The group loop: parse every non-comment line, in order, stopping at
      the first failure. */
  function ParseLines<T>(lines: seq<string>, parse: string -> Result<T>): (r: Result<seq<T>>)
    ensures r.Success? ==> |r.value| <= |lines|
  {
    if lines == [] then Success([])
    else ParseLine(lines[0], parse, ParseLines(lines[1..], parse))
  }

  /** One step of the group loop: the line `l` in front of the result for
      the lines after it. */
  function ParseLine<T>(l: string, parse: string -> Result<T>, rest: Result<seq<T>>): (r: Result<seq<T>>)
    ensures r.Success? ==> rest.Success? && |r.value| <= |rest.value| + 1
  {
    if IsComment(l) then rest
    else
      match parse(l)
      case Failure(e) => Failure(e)
      case Success(x) =>
        match rest
        case Failure(e) => Failure(e)
        case Success(xs) => Success([x] + xs)
  }

  /** The group loop succeeds exactly when every non-comment line parses. */
  lemma {:induction false} ParseLinesSucceeds<T>(lines: seq<string>, parse: string -> Result<T>)
    ensures ParseLines(lines, parse).Success? <==> forall l :: l in lines && !IsComment(l) ==> parse(l).Success?
  {
    if lines != [] {
      var h, t := lines[0], lines[1..];
      ParseLinesSucceeds(t, parse);
      assert ParseLines(lines, parse) == ParseLine(h, parse, ParseLines(t, parse));
      assert lines == [h] + t;
      forall l ensures l in lines <==> l == h || l in t {}
    }
  }

  /** On success, comment lines add nothing and every other line adds exactly
      its own item, in input order. */
  lemma {:induction false} ParseLinesItems<T>(lines: seq<string>, parse: string -> Result<T>)
    requires ParseLines(lines, parse).Success?
    ensures |ParseLines(lines, parse).value| == |Uncommented(lines)|
    ensures forall i :: 0 <= i < |Uncommented(lines)| ==>
              parse(Uncommented(lines)[i]) == Success(ParseLines(lines, parse).value[i])
  {
    if lines != [] {
      var h, t := lines[0], lines[1..];
      var r, rt := ParseLines(lines, parse), ParseLines(t, parse);
      assert r == ParseLine(h, parse, rt);
      assert rt.Success?;
      ParseLinesItems(t, parse);
      var u, ut := Uncommented(lines), Uncommented(t);
      if IsComment(h) {
        assert u == ut;
      } else {
        assert u == [h] + ut;
        assert r.value == [parse(h).value] + rt.value;
        forall i | 0 <= i < |u| ensures parse(u[i]) == Success(r.value[i]) {
          if i > 0 {
            assert u[i] == ut[i - 1] && r.value[i] == rt.value[i - 1];
          }
        }
      }
    }
  }

  /** `readPuzzle`: the size line, then the cages. */
  function ReadPuzzle(data: seq<string>): (r: Result<Puzzle>)
    ensures r.Success? ==> |data| >= 1 && ParseInt(data[0]) == Some(r.value.n) && r.value.n >= 0
    ensures r.Success? ==> |r.value.groups| < |data|
  {
    if |data| == 0 then Failure("no size line")
    else
      match ParseInt(data[0])
      case None => Failure("malformed size")
      case Some(n) =>
        if n < 0 then Failure("negative size")
        else
          match ParseLines(data[1..], ParseGroup)
          case Failure(e) => Failure(e)
          case Success(groups) => Success(Puzzle(n, groups))
  }

  /** Reading succeeds exactly when there is a size line holding a
      non-negative integer and every later non-comment line is a well-formed
      cage line; the puzzle then has that size and one cage per such line,
      in order. */
  lemma ReadPuzzleSpec(data: seq<string>)
    ensures ReadPuzzle(data).Success? <==>
              && |data| >= 1 && ParseInt(data[0]).Some? && ParseInt(data[0]).value >= 0
              && forall l :: l in data[1..] && !IsComment(l) ==> ParseGroup(l).Success?
    ensures ReadPuzzle(data).Success? ==>
              && ReadPuzzle(data).value.n == ParseInt(data[0]).value
              && |ReadPuzzle(data).value.groups| == |Uncommented(data[1..])|
              && forall i :: 0 <= i < |Uncommented(data[1..])| ==>
                   ParseGroup(Uncommented(data[1..])[i]) == Success(ReadPuzzle(data).value.groups[i])
  {
    if |data| >= 1 {
      ParseLinesSucceeds(data[1..], ParseGroup);
      if ReadPuzzle(data).Success? {
        ParseLinesItems(data[1..], ParseGroup);
      }
    }
  }

  /** Inserting a comment line anywhere after the size line changes nothing. */
  lemma {:induction false} CommentLineIgnored<T>(before: seq<string>, comment: string, after: seq<string>,
                                                 parse: string -> Result<T>)
    requires IsComment(comment)
    ensures ParseLines(before + [comment] + after, parse) == ParseLines(before + after, parse)
    decreases |before|
  {
    var x, y := before + [comment] + after, before + after;
    if before == [] {
      assert x[1..] == y;
    } else {
      CommentLineIgnored(before[1..], comment, after, parse);
      assert x[1..] == before[1..] + [comment] + after;
      assert y[1..] == before[1..] + after;
      assert x[0] == y[0];
    }
  }

  /** When every text parses to the matching item, the whole list does. */
  lemma ParseEachInverse<T>(texts: seq<string>, parse: string -> Result<T>, xs: seq<T>)
    requires |texts| == |xs| && forall i :: 0 <= i < |texts| ==> parse(texts[i]) == Success(xs[i])
    ensures ParseEach(texts, parse) == Success(xs)
  {
    var r := ParseEach(texts, parse);
    assert r.Success?;
    forall i | 0 <= i < |xs| ensures r.value[i] == xs[i] {}
    assert r.value == xs;
  }

  // ---------------------------------------------------------------------------
  // The writing side, and the round trip.
  // ---------------------------------------------------------------------------

  function FormatCell(c: Cell): (s: string)
  {
    IntToString(c.row) + "," + IntToString(c.col)
  }

  function FormatCellList(cells: seq<Cell>): (r: seq<string>)
    ensures |r| == |cells| && forall i :: 0 <= i < |cells| ==> r[i] == FormatCell(cells[i])
  {
    if cells == [] then [] else [FormatCell(cells[0])] + FormatCellList(cells[1..])
  }

  /** The part of a cage line before `->`. */
  function CellsText(cells: seq<Cell>): (s: string)
  {
    Join(FormatCellList(cells), ";")
  }

  /** The part of a cage line after `->`. */
  function TailText(op: char, target: int): (s: string)
  {
    [op] + "," + IntToString(target)
  }

  function FormatGroup(grp: Group): (s: string)
  {
    CellsText(grp.cells) + "->" + TailText(grp.op, grp.target)
  }

  function FormatGroups(groups: seq<Group>): (r: seq<string>)
    ensures |r| == |groups| && forall i :: 0 <= i < |groups| ==> r[i] == FormatGroup(groups[i])
  {
    if groups == [] then [] else [FormatGroup(groups[0])] + FormatGroups(groups[1..])
  }

  /** The puzzle file for `p`: its size, then one line per cage. */
  function FormatPuzzle(p: Puzzle): (lines: seq<string>)
  {
    [IntToString(p.n)] + FormatGroups(p.groups)
  }

  /** A cell whose coordinates `parseInt` can read back: both within Java's
      int range, negative ones included. */
  predicate CellWritable(c: Cell)
  {
    IntMin <= c.row <= IntMax && IntMin <= c.col <= IntMax
  }

  /** A cage the line format can carry: at least one cell, coordinates and a
      target within Java's int range, and an operator that is not the field
      separator. */
  predicate Writable(grp: Group)
  {
    && |grp.cells| >= 1
    && (forall c :: c in grp.cells ==> CellWritable(c))
    && grp.op != ','
    && IntMin <= grp.target <= IntMax
  }

  predicate WritablePuzzle(p: Puzzle)
  {
    0 <= p.n <= IntMax && forall grp :: grp in p.groups ==> Writable(grp)
  }

  /** A written cell splits on `,` into its two numerals. */
  lemma SplitFormatCell(c: Cell)
    ensures Split(FormatCell(c), ",") == [IntToString(c.row), IntToString(c.col)]
    ensures '>' !in FormatCell(c) && ';' !in FormatCell(c) && |FormatCell(c)| >= 1
  {
    var a, b := IntToString(c.row), IntToString(c.col);
    IntToStringChars(c.row);
    IntToStringChars(c.col);
    assert ',' !in a && ',' !in b;
    CleanWithoutLead(a, ",");
    AbsentWithoutChar(b, ",", 0);
    assert Join([a, b], ",") == FormatCell(c);
    SplitJoin([a, b], ",");
  }

  lemma ParseFormatCell(c: Cell)
    requires CellWritable(c)
    ensures ParseCell(FormatCell(c)) == Success(c)
    ensures '>' !in FormatCell(c) && ';' !in FormatCell(c) && |FormatCell(c)| >= 1
  {
    SplitFormatCell(c);
    ParseIntToString(c.row);
    ParseIntToString(c.col);
  }

  lemma ParseFormatCellList(cells: seq<Cell>)
    requires forall c :: c in cells ==> CellWritable(c)
    ensures ParseEach(FormatCellList(cells), ParseCell) == Success(cells)
  {
    forall i | 0 <= i < |cells| ensures ParseCell(FormatCellList(cells)[i]) == Success(cells[i]) {
      ParseFormatCell(cells[i]);
    }
    ParseEachInverse(FormatCellList(cells), ParseCell, cells);
  }

  /** The text before `->` has no `>`, so the arrow after it is the first. */
  lemma {:induction false} CellsTextChars(cells: seq<Cell>)
    ensures '>' !in CellsText(cells)
  {
    if |cells| > 1 {
      SplitFormatCell(cells[0]);
      CellsTextChars(cells[1..]);
      assert FormatCellList(cells)[1..] == FormatCellList(cells[1..]);
    } else if |cells| == 1 {
      SplitFormatCell(cells[0]);
    }
  }

  /** `op,target` never contains `->`: the only `-` may be the operator or
      the target's sign, and neither is followed by `>`. */
  lemma TailHasNoArrow(op: char, t: int)
    ensures IndexOf(TailText(op, t), "->") == None
  {
    var s := TailText(op, t);
    IntToStringChars(t);
    IndexOfFirst(s, "->");
    forall j | 1 <= j < |s| ensures s[j] != '>' {
      if j > 1 {
        assert s[j] == IntToString(t)[j - 2];
      }
    }
    forall k ensures !OccursAt(s, "->", k) {
      if 0 <= k && k + 2 <= |s| {
        assert s[k..k + 2][1] == s[k + 1];
      }
    }
  }

  lemma SplitGroupLine(grp: Group)
    requires Writable(grp)
    ensures Split(FormatGroup(grp), "->") == [CellsText(grp.cells), TailText(grp.op, grp.target)]
  {
    CellsTextChars(grp.cells);
    CleanWithoutSecond(CellsText(grp.cells), "->");
    TailHasNoArrow(grp.op, grp.target);
    assert Join([CellsText(grp.cells), TailText(grp.op, grp.target)], "->") == FormatGroup(grp);
    SplitJoin([CellsText(grp.cells), TailText(grp.op, grp.target)], "->");
  }

  lemma SplitCellsText(cells: seq<Cell>)
    requires |cells| >= 1
    ensures Split(CellsText(cells), ";") == FormatCellList(cells)
  {
    var texts := FormatCellList(cells);
    forall i | 0 <= i < |texts|
      ensures Clean(texts[i], ";") && IndexOf(texts[i], ";") == None && texts[i] != ""
    {
      SplitFormatCell(cells[i]);
      CleanWithoutLead(texts[i], ";");
      AbsentWithoutChar(texts[i], ";", 0);
    }
    SplitJoin(texts, ";");
  }

  lemma SplitTailText(op: char, t: int)
    requires op != ','
    ensures Split(TailText(op, t), ",") == [[op], IntToString(t)]
  {
    IntToStringChars(t);
    CleanWithoutLead([op], ",");
    AbsentWithoutChar(IntToString(t), ",", 0);
    assert Join([[op], IntToString(t)], ",") == TailText(op, t);
    SplitJoin([[op], IntToString(t)], ",");
  }

  lemma ParseTailText(op: char, t: int)
    requires op != ',' && IntMin <= t <= IntMax
    ensures ParseTail(TailText(op, t)) == Success((op, t))
  {
    SplitTailText(op, t);
    ParseIntToString(t);
  }

  lemma ParseFormatGroup(grp: Group)
    requires Writable(grp)
    ensures ParseGroup(FormatGroup(grp)) == Success(grp)
  {
    SplitGroupLine(grp);
    SplitCellsText(grp.cells);
    ParseFormatCellList(grp.cells);
    ParseTailText(grp.op, grp.target);
  }

  /** A cage line starts with a digit or a minus sign, never with `#`. */
  lemma FormatGroupNotComment(grp: Group)
    requires Writable(grp)
    ensures !IsComment(FormatGroup(grp))
  {
    var first := FormatCell(grp.cells[0]);
    IntToStringChars(grp.cells[0].row);
    assert IsDigit(first[0]) || first[0] == '-';
    var texts := FormatCellList(grp.cells);
    assert texts[0] == first;
    assert CellsText(grp.cells)[0] == first[0];
    var line := FormatGroup(grp);
    assert line[0] == first[0];
    assert line[..1] != "#" by {
      assert line[..1][0] == line[0];
    }
  }

  /** The cage lines of a written puzzle read back as its cages, in order. */
  lemma {:induction false} ParseFormatGroups(groups: seq<Group>)
    requires forall i :: 0 <= i < |groups| ==> Writable(groups[i])
    ensures ParseLines(FormatGroups(groups), ParseGroup) == Success(groups)
  {
    var lines := FormatGroups(groups);
    forall i | 0 <= i < |lines| ensures ParseGroup(lines[i]) == Success(groups[i]) && !IsComment(lines[i]) {
      ParseFormatGroup(groups[i]);
      FormatGroupNotComment(groups[i]);
    }
    NoCommentsKept(lines);
    ParseLinesSucceeds(lines, ParseGroup);
    ParseLinesItems(lines, ParseGroup);
    var r := ParseLines(lines, ParseGroup);
    assert |r.value| == |groups|;
    assert r.value == groups;
  }

  /** Reading back a written puzzle gives the same size and the same cages in
      the same order. */
  lemma {:induction false} ReadFormat(p: Puzzle)
    requires WritablePuzzle(p)
    ensures ReadPuzzle(FormatPuzzle(p)) == Success(p)
  {
    ParseIntToString(p.n);
    assert FormatPuzzle(p)[1..] == FormatGroups(p.groups);
    ParseFormatGroups(p.groups);
  }

  lemma {:induction false} NoCommentsKept(lines: seq<string>)
    requires forall i :: 0 <= i < |lines| ==> !IsComment(lines[i])
    ensures Uncommented(lines) == lines
  {
    if lines != [] {
      NoCommentsKept(lines[1..]);
    }
  }
}

=== FILE: search.dfy ===
/** The backtracking search: MRV variable selection, value trial with
    `isValid`, forward checking, exact undo on failure, and the top-level
    `solvePuzzle` that runs AC-3 first. */
module Search {
  import opened Wrappers
  import opened Cells
  import opened Board
  import opened Constraints
  import opened Domains
  import opened ArcConsistency

  // ---------------------------------------------------------------------------
  // What a solution is, and what the search keeps true on the way.
  // ---------------------------------------------------------------------------

  /** No two cells of one row or column hold the same non-zero value. */
  ghost predicate LinesDistinct(g: Grid, n: int)
    requires IsGrid(g, n)
  {
    forall c, d :: SameLine(c, d, n) && At(g, c) != 0 ==> At(g, c) != At(g, d)
  }

  /** A completed KenKen grid: every cell holds 1..n, rows and columns have no
      repeats, and every cage's arithmetic holds. */
  ghost predicate IsSolution(p: Puzzle, g: Grid)
  {
    && IsGrid(g, p.n)
    && (forall c :: InRange(c, p.n) ==> 1 <= At(g, c) <= p.n)
    && LinesDistinct(g, p.n)
    && (forall grp :: grp in p.groups ==> AllOnBoard(g, grp.cells) && Satisfied(grp, g))
  }

  /** The state `solve` runs in: a partial grid with values 0..n, no repeats in
      a line, every fully filled cage satisfied, and a domain of values 1..n
      for every cell. */
  ghost predicate SearchInv(p: Puzzle, g: Grid, doms: Domains)
  {
    && WellFormed(p)
    && IsGrid(g, p.n)
    && (forall c :: InRange(c, p.n) ==> 0 <= At(g, c) <= p.n)
    && LinesDistinct(g, p.n)
    && (forall grp :: grp in p.groups ==> AllOnBoard(g, grp.cells) && (Filled(grp, g) ==> Satisfied(grp, g)))
    && Covers(doms, p.n)
    && ValuesIn(doms, p.n)
  }

  /** `g2` keeps every value `g1` has assigned. */
  ghost predicate Extends(g2: Grid, g1: Grid, n: int)
    requires IsGrid(g1, n) && IsGrid(g2, n)
  {
    forall c :: InRange(c, n) && At(g1, c) != 0 ==> At(g2, c) == At(g1, c)
  }

  // ---------------------------------------------------------------------------
  // MRV.
  // ---------------------------------------------------------------------------

  /** `c` comes before `d` in row-major order. */
  predicate Before(c: Cell, d: Cell)
  {
    c.row < d.row || (c.row == d.row && c.col < d.col)
  }

  /** The cell `selectUnassignedVariable` picks: unassigned, with no
      unassigned cell having a smaller domain, and every unassigned cell
      before it in row-major order having a strictly larger one. */
  ghost predicate IsMrvChoice(g: Grid, doms: Domains, n: int, c: Cell)
    requires IsGrid(g, n) && Covers(doms, n)
  {
    && InRange(c, n) && At(g, c) == 0
    && (forall d :: InRange(d, n) && At(g, d) == 0 ==> |doms[c]| <= |doms[d]|)
    && (forall d :: InRange(d, n) && At(g, d) == 0 && Before(d, c) ==> |doms[c]| < |doms[d]|)
  }

  /** At most one cell is the MRV choice: the heuristic is deterministic. */
  lemma MrvChoiceUnique(g: Grid, doms: Domains, n: int, c: Cell, d: Cell)
    requires IsGrid(g, n) && Covers(doms, n)
    requires IsMrvChoice(g, doms, n, c) && IsMrvChoice(g, doms, n, d)
    ensures c == d
  {
  }

  /** The scan state after visiting every cell before `lim`: `r` is the MRV
      choice among the visited cells, or None when none of them is unassigned. */
  ghost predicate BestSoFar(g: Grid, doms: Domains, n: int, r: Option<Cell>, lim: Cell)
    requires IsGrid(g, n) && Covers(doms, n)
  {
    && (r.None? <==> forall d :: InRange(d, n) && Before(d, lim) ==> At(g, d) != 0)
    && (r.Some? ==>
          && InRange(r.value, n) && Before(r.value, lim) && At(g, r.value) == 0
          && (forall d :: InRange(d, n) && Before(d, lim) && At(g, d) == 0 ==> |doms[r.value]| <= |doms[d]|)
          && (forall d :: InRange(d, n) && Before(d, r.value) && At(g, d) == 0 ==> |doms[r.value]| < |doms[d]|))
  }

  /** Visiting cell `(i, j)`: it becomes the choice exactly when it is
      unassigned and its domain is strictly smaller than the current one's. */
  lemma ScanStep(g: Grid, doms: Domains, n: int, i: int, j: int, r: Option<Cell>, r': Option<Cell>)
    requires IsGrid(g, n) && Covers(doms, n) && 0 <= i < n && 0 <= j < n
    requires BestSoFar(g, doms, n, r, Cell(i, j))
    requires r' == if g[i][j] == 0 && (r.None? || |doms[Cell(i, j)]| < |doms[r.value]|) then Some(Cell(i, j)) else r
    ensures BestSoFar(g, doms, n, r', Cell(i, j + 1))
  {
    var c, lim := Cell(i, j), Cell(i, j + 1);
    assert At(g, c) == g[i][j];
    forall d ensures Before(d, lim) <==> Before(d, c) || d == c {}
    if r'.Some? {
      forall d | InRange(d, n) && Before(d, r'.value) && At(g, d) == 0
        ensures |doms[r'.value]| < |doms[d]|
      {
        if r' != r {
          assert Before(d, c);
        }
      }
    }
  }

  /** The inner loop of `selectUnassignedVariable` over row `i`. */
  method ScanRow(g: Grid, doms: Domains, n: int, i: int, r0: Option<Cell>) returns (r: Option<Cell>)
    requires IsGrid(g, n) && Covers(doms, n) && 0 <= i < n
    requires BestSoFar(g, doms, n, r0, Cell(i, 0))
    ensures BestSoFar(g, doms, n, r, Cell(i + 1, 0))
  {
    r := r0;
    var j := 0;
    while j < n
      invariant 0 <= j <= n
      invariant BestSoFar(g, doms, n, r, Cell(i, j))
    {
      var c := Cell(i, j);
      ghost var before := r;
      if g[i][j] == 0 && (r.None? || |doms[c]| < |doms[r.value]|) {
        r := Some(c);
      }
      ScanStep(g, doms, n, i, j, before, r);
      j := j + 1;
    }
  }

  /** `selectUnassignedVariable`: the MRV choice, or None when the grid is
      full. */
  method SelectUnassigned(g: Grid, doms: Domains, n: int) returns (r: Option<Cell>)
    requires IsGrid(g, n) && Covers(doms, n)
    ensures r.None? <==> forall c :: InRange(c, n) ==> At(g, c) != 0
    ensures r.Some? ==> IsMrvChoice(g, doms, n, r.value)
  {
    r := None;
    var i := 0;
    while i < n
      invariant 0 <= i <= if n < 0 then 0 else n
      invariant BestSoFar(g, doms, n, r, Cell(i, 0))
    {
      r := ScanRow(g, doms, n, i, r);
      i := i + 1;
    }
  }

  // ---------------------------------------------------------------------------
  // Backtracking.
  // ---------------------------------------------------------------------------

  /** In the search state every cage lies on the grid and a non-zero value
      never trips the multiplication check's division: `isValid` can run. */
  lemma UsableFor(p: Puzzle, g: Grid, doms: Domains, cell: Cell, v: int)
    requires SearchInv(p, g, doms) && v != 0
    ensures CagesUsable(p.groups, g, cell, v)
  {
  }

  /** Writing a value `isValid` accepts into an unassigned cell keeps the
      search state: no line repeat is created, and a cage that becomes full
      is satisfied because `isValid`'s cage check decides exactly that. */
  lemma AssignKeepsInv(p: Puzzle, g: Grid, doms: Domains, cell: Cell, v: int)
    requires SearchInv(p, g, doms) && InRange(cell, p.n) && At(g, cell) == 0 && 1 <= v <= p.n
    requires CagesUsable(p.groups, g, cell, v) && IsValid(p.groups, g, cell, v)
    ensures SearchInv(p, Assign(g, cell, v), doms)
  {
    var g1 := Assign(g, cell, v);
    AssignShrinksZeroCells(g, p.n, cell, v);
    forall c, d | SameLine(c, d, p.n) && At(g1, c) != 0
      ensures At(g1, c) != At(g1, d)
    {
      if c == cell {
        assert At(g, d) == g[d.row][d.col];
      } else if d == cell {
        assert At(g, c) == g[c.row][c.col];
      }
    }
    forall grp | grp in p.groups
      ensures AllOnBoard(g1, grp.cells) && (Filled(grp, g1) ==> Satisfied(grp, g1))
    {
      if cell in grp.cells {
        if Filled(grp, g1) {
          assert OthersFilled(grp.cells, g, cell);
          CageCheckComplete(grp, g, cell, v);
        }
      } else {
        SatisfiedFrame(grp, g, cell, v);
      }
    }
  }

  /** Forward checking only removes values, so the pruned store still covers
      the grid with values in 1..n. */
  lemma PruneKeepsInv(p: Puzzle, g: Grid, doms: Domains, doms': Domains, saved: Domains, v: int)
    requires SearchInv(p, g, doms) && Journal(doms, doms', saved)
    requires forall c :: c in saved ==> doms'[c] == doms[c] - {v}
    ensures SearchInv(p, g, doms')
  {
    forall c, x | c in doms' && x in doms'[c] ensures 1 <= x <= p.n {
      if c in saved {
        assert x in doms[c];
      }
    }
  }

  /** A full grid in the search state is a solution. */
  lemma FullIsSolution(p: Puzzle, g: Grid, doms: Domains)
    requires SearchInv(p, g, doms)
    requires forall c :: InRange(c, p.n) ==> At(g, c) != 0
    ensures IsSolution(p, g)
  {
    forall grp | grp in p.groups ensures Filled(grp, g) {
      forall c | c in grp.cells ensures At(g, c) != 0 {
        assert InRange(c, p.n);
      }
    }
  }

  /** `solve`: pick the MRV cell and try the values of its domain in
      ascending order. On success the grid is a solution that keeps every
      value already placed; on failure grid and domains are exactly as they
      were. */
  method Solve(p: Puzzle, g: Grid, doms: Domains) returns (ok: bool, g': Grid, doms': Domains)
    requires SearchInv(p, g, doms)
    ensures ok ==> IsSolution(p, g') && Extends(g', g, p.n)
    ensures !ok ==> g' == g && doms' == doms
    decreases ZeroCells(g, p.n), 1
  {
    var sel := SelectUnassigned(g, doms, p.n);
    if sel.None? {
      FullIsSolution(p, g, doms);
      return true, g, doms;
    }
    var cell := sel.value;
    var gc, dc := g, doms;
    var k := 1;
    while k <= p.n
      invariant gc == g && dc == doms
    {
      if k in dc[cell] {
        ok, g', doms' := TryValue(p, gc, dc, cell, k);
        if ok {
          return;
        }
        gc, dc := g', doms';
      }
      k := k + 1;
    }
    return false, gc, dc;
  }

  /** One iteration of `solve`'s value loop: if `isValid` accepts `v`, place
      it, forward-check, recurse, and on failure undo both the placement and
      the pruning. */
  method TryValue(p: Puzzle, g: Grid, doms: Domains, cell: Cell, v: int)
    returns (ok: bool, g': Grid, doms': Domains)
    requires SearchInv(p, g, doms) && InRange(cell, p.n) && At(g, cell) == 0 && 1 <= v <= p.n
    ensures ok ==> IsSolution(p, g') && Extends(g', g, p.n)
    ensures !ok ==> g' == g && doms' == doms
    decreases ZeroCells(g, p.n), 0
  {
    UsableFor(p, g, doms, cell, v);
    if !IsValid(p.groups, g, cell, v) {
      return false, g, doms;
    }
    var g1 := Assign(g, cell, v);
    AssignKeepsInv(p, g, doms, cell, v);
    AssignShrinksZeroCells(g, p.n, cell, v);
    var fine, d1, saved := ForwardCheck(g1, doms, cell, v);
    var g2, d2 := g1, d1;
    if fine {
      PruneKeepsInv(p, g1, doms, d1, saved, v);
      ok, g2, d2 := Solve(p, g1, d1);
      if ok {
        return true, g2, d2;
      }
    }
    // Backtrack from whatever state the failed branch left behind.
    AssignBack(g, cell, v);
    RestoreUndoes(doms, d2, saved);
    return false, Assign(g2, cell, 0), RestoreDomains(d2, saved);
  }

  /** The empty grid with domains cut down from the initial ones is a
      search state. */
  lemma StartInv(p: Puzzle, doms: Domains)
    requires WellFormed(p)
    requires doms.Keys == InitialDomains(p.n).Keys
    requires forall c :: c in doms ==> doms[c] <= InitialDomains(p.n)[c]
    ensures SearchInv(p, Zeros(p.n), doms)
  {
    var z, init := Zeros(p.n), InitialDomains(p.n);
    forall c, x | c in doms && x in doms[c] ensures 1 <= x <= p.n {
      assert x in init[c];
    }
    forall grp | grp in p.groups
      ensures AllOnBoard(z, grp.cells) && !Filled(grp, z)
    {
      var c0 := grp.cells[0];
      assert c0 in grp.cells && InRange(c0, p.n);
      assert At(z, c0) == 0;
    }
  }

  /** `solvePuzzle`: initial domains, AC-3, then the search from the empty
      grid. A true answer comes with a solution; on false the grid is
      untouched. */
  method SolvePuzzle(p: Puzzle) returns (ok: bool, grid: Grid)
    requires WellFormed(p)
    ensures ok ==> IsSolution(p, grid)
    ensures !ok ==> grid == Zeros(p.n)
  {
    var doms := InitialDomains(p.n);
    var consistent, pruned := AC3(p, doms);
    if !consistent {
      return false, Zeros(p.n);
    }
    StartInv(p, pruned);
    var final;
    ok, grid, final := Solve(p, Zeros(p.n), pruned);
  }
}

=== FILE: text.dfy ===
/** The pieces of `java.lang.String` the puzzle loader uses: `split` on a
    literal separator, `startsWith`, and `Integer.parseInt` / `toString`. */
module Text {
  import opened Wrappers

  const IntMin: int := -0x8000_0000
  const IntMax: int := 0x7FFF_FFFF

  predicate StartsWith(s: string, prefix: string)
  {
    |prefix| <= |s| && s[..|prefix|] == prefix
  }

  // ---------------------------------------------------------------------------
  // Searching and splitting.
  // ---------------------------------------------------------------------------

  /** `sep` occurs in `s` starting at index `k`. */
  predicate OccursAt(s: string, sep: string, k: int)
  {
    0 <= k && k + |sep| <= |s| && s[k..k + |sep|] == sep
  }

  /** The first occurrence of `sep` in `s` at or after `from`. */
  function IndexFrom(s: string, sep: string, from: nat): (r: Option<nat>)
    requires |sep| > 0
    ensures r.Some? ==> from <= r.value && r.value + |sep| <= |s|
    decreases |s| - from
  {
    if from + |sep| > |s| then None
    else if s[from..from + |sep|] == sep then Some(from)
    else IndexFrom(s, sep, from + 1)
  }

  /** `s.indexOf(sep)`, or None for -1. */
  function IndexOf(s: string, sep: string): (r: Option<nat>)
    requires |sep| > 0
    ensures r.Some? ==> r.value + |sep| <= |s|
  {
    IndexFrom(s, sep, 0)
  }

  /** The search finds an occurrence, and none earlier. */
  lemma {:induction false} IndexFromFirst(s: string, sep: string, from: nat)
    requires |sep| > 0
    ensures IndexFrom(s, sep, from).Some? ==> OccursAt(s, sep, IndexFrom(s, sep, from).value)
    ensures forall k :: from <= k && (IndexFrom(s, sep, from).None? || k < IndexFrom(s, sep, from).value)
                        ==> !OccursAt(s, sep, k)
    decreases |s| - from
  {
    if from + |sep| <= |s| && s[from..from + |sep|] != sep {
      IndexFromFirst(s, sep, from + 1);
    }
  }

  /** `indexOf` returns the first occurrence, and -1 only when there is none. */
  lemma IndexOfFirst(s: string, sep: string)
    requires |sep| > 0
    ensures IndexOf(s, sep).Some? ==> OccursAt(s, sep, IndexOf(s, sep).value)
    ensures forall k :: 0 <= k && (IndexOf(s, sep).None? || k < IndexOf(s, sep).value) ==> !OccursAt(s, sep, k)
  {
    IndexFromFirst(s, sep, 0);
  }

  /** The text between successive left-to-right occurrences of `sep`, empty
      pieces included. */
  function RawSplit(s: string, sep: string): (r: seq<string>)
    requires |sep| > 0
    ensures |r| >= 1
    decreases |s|
  {
    match IndexOf(s, sep)
    case None => [s]
    case Some(i) => [s[..i]] + RawSplit(s[i + |sep|..], sep)
  }

  /** `parts` glued together with `sep` between neighbours. */
  function Join(parts: seq<string>, sep: string): (s: string)
  {
    if |parts| == 0 then ""
    else if |parts| == 1 then parts[0]
    else parts[0] + sep + Join(parts[1..], sep)
  }

  /** Drop empty strings from the end. */
  function StripTrailing(parts: seq<string>): (r: seq<string>)
    ensures |r| <= |parts| && r == parts[..|r|]
    ensures r == [] || r[|r| - 1] != ""
    ensures forall k :: |r| <= k < |parts| ==> parts[k] == ""
  {
    if parts != [] && parts[|parts| - 1] == "" then StripTrailing(parts[..|parts| - 1])
    else parts
  }

  /** `s.split(sep)` for a separator with no regular-expression
      metacharacters: the raw pieces with trailing empty strings removed,
      except that a string with no occurrence splits to itself (so `""`
      splits to `[""]`). */
  function Split(s: string, sep: string): (r: seq<string>)
    requires |sep| > 0
    ensures IndexOf(s, sep).None? ==> r == [s]
    ensures IndexOf(s, sep).Some? ==>
              && |r| <= |RawSplit(s, sep)| && r == RawSplit(s, sep)[..|r|]
              && (r == [] || r[|r| - 1] != "")
              && forall k :: |r| <= k < |RawSplit(s, sep)| ==> RawSplit(s, sep)[k] == ""
  {
    var raw := RawSplit(s, sep);
    if |raw| == 1 then raw else StripTrailing(raw)
  }

  /** Splitting loses nothing: the pieces rejoin to the original. */
  lemma {:induction false} JoinRawSplit(s: string, sep: string)
    requires |sep| > 0
    ensures Join(RawSplit(s, sep), sep) == s
    decreases |s|
  {
    match IndexOf(s, sep)
    case None =>
    case Some(i) =>
      IndexOfFirst(s, sep);
      var rest := s[i + |sep|..];
      var tail := RawSplit(rest, sep);
      JoinRawSplit(rest, sep);
      var parts := [s[..i]] + tail;
      assert RawSplit(s, sep) == parts;
      assert parts[1..] == tail;
      assert Join(parts, sep) == s[..i] + sep + Join(tail, sep);
      assert s == s[..i] + sep + rest;
  }

  /** No occurrence of `sep` in `p + sep` starts inside `p`: the separator
      written after `p` is the first one found. */
  predicate Clean(p: string, sep: string)
  {
    forall k :: 0 <= k < |p| ==> !OccursAt(p + sep, sep, k)
  }

  /** A piece that lacks the separator's first character is clean. */
  lemma CleanWithoutLead(p: string, sep: string)
    requires |sep| > 0 && sep[0] !in p
    ensures Clean(p, sep)
  {
    forall k | 0 <= k < |p| ensures !OccursAt(p + sep, sep, k) {
      assert (p + sep)[k] == p[k];
    }
  }

  /** A piece that lacks the separator's second character, where that differs
      from its first, is clean. */
  lemma CleanWithoutSecond(p: string, sep: string)
    requires |sep| >= 2 && sep[1] !in p && sep[1] != sep[0]
    ensures Clean(p, sep)
  {
    forall k | 0 <= k < |p| ensures !OccursAt(p + sep, sep, k) {
      var s := p + sep;
      assert s[k + 1] != sep[1] by {
        if k + 1 < |p| {
          assert s[k + 1] == p[k + 1];
        }
      }
      assert s[k..k + |sep|][1] == s[k + 1];
    }
  }

  /** A string lacking one of the separator's characters contains no occurrence. */
  lemma AbsentWithoutChar(s: string, sep: string, j: nat)
    requires j < |sep| && sep[j] !in s
    ensures IndexOf(s, sep) == None
  {
    IndexOfFirst(s, sep);
    forall k | OccursAt(s, sep, k) ensures false {}
  }

  lemma FirstOccurrenceAfterClean(p: string, sep: string, rest: string)
    requires |sep| > 0 && Clean(p, sep)
    ensures IndexOf(p + sep + rest, sep) == Some(|p|)
  {
    var s := p + sep + rest;
    IndexOfFirst(s, sep);
    assert OccursAt(s, sep, |p|) by {
      assert s[|p|..|p| + |sep|] == sep;
    }
    forall k | 0 <= k < |p| ensures !OccursAt(s, sep, k) {
      assert !OccursAt(p + sep, sep, k);
    }
  }

  /** Joining pieces and splitting again gives the pieces back, when every
      piece but the last is clean and the last contains no separator. */
  lemma {:induction false} RawSplitJoin(parts: seq<string>, sep: string)
    requires |sep| > 0 && |parts| >= 1
    requires forall i :: 0 <= i < |parts| - 1 ==> Clean(parts[i], sep)
    requires IndexOf(parts[|parts| - 1], sep) == None
    ensures RawSplit(Join(parts, sep), sep) == parts
    decreases |parts|
  {
    if |parts| > 1 {
      var rest := Join(parts[1..], sep);
      FirstOccurrenceAfterClean(parts[0], sep, rest);
      var s := parts[0] + sep + rest;
      assert s[..|parts[0]|] == parts[0];
      assert s[|parts[0]| + |sep|..] == rest;
      RawSplitJoin(parts[1..], sep);
    }
  }

  /** The same for Java's `split`, which also needs a non-empty last piece
      (or a single piece) so that no trailing empty string is dropped. */
  lemma SplitJoin(parts: seq<string>, sep: string)
    requires |sep| > 0 && |parts| >= 1
    requires forall i :: 0 <= i < |parts| - 1 ==> Clean(parts[i], sep)
    requires IndexOf(parts[|parts| - 1], sep) == None
    requires |parts| == 1 || parts[|parts| - 1] != ""
    ensures Split(Join(parts, sep), sep) == parts
  {
    RawSplitJoin(parts, sep);
  }

  // ---------------------------------------------------------------------------
  // Integers.
  // ---------------------------------------------------------------------------

  predicate IsDigit(ch: char)
  {
    '0' <= ch <= '9'
  }

  predicate AllDigits(s: string)
  {
    forall i :: 0 <= i < |s| ==> IsDigit(s[i])
  }

  /** The decimal value of a digit string, most significant digit first. */
  function DigitsValue(s: string): (r: nat)
    requires AllDigits(s)
  {
    if s == [] then 0
    else DigitsValue(s[..|s| - 1]) * 10 + (s[|s| - 1] as int - '0' as int)
  }

  /** `Integer.parseInt`: an optional `+` or `-`, then at least one ASCII
      digit, with the value inside the 32-bit range; None where Java throws
      `NumberFormatException`. */
  function ParseInt(s: string): (r: Option<int>)
    ensures r.Some? ==> IntMin <= r.value <= IntMax
  {
    if s == [] then None
    else
      var digits := if s[0] == '-' || s[0] == '+' then s[1..] else s;
      if digits == [] || !AllDigits(digits) then None
      else SignedInRange(s[0] == '-', DigitsValue(digits))
  }

  /** `parseInt` accepts exactly an optional `+` or `-` followed by at least
      one decimal digit whose signed value fits in a Java int, and yields
      that value. */
  lemma ParseIntSpec(s: string)
    ensures ParseInt(s).Some? <==>
              && s != []
              && var d := if s[0] == '-' || s[0] == '+' then s[1..] else s;
                 && d != [] && AllDigits(d)
                 && IntMin <= (if s[0] == '-' then -(DigitsValue(d) as int) else DigitsValue(d) as int) <= IntMax
    ensures ParseInt(s).Some? ==>
              var d := if s[0] == '-' || s[0] == '+' then s[1..] else s;
              ParseInt(s).value == if s[0] == '-' then -(DigitsValue(d) as int) else DigitsValue(d) as int
  {
  }

  /** The signed value when it fits in a Java int. */
  function SignedInRange(neg: bool, mag: nat): (r: Option<int>)
  {
    var v: int := if neg then -(mag as int) else mag;
    if IntMin <= v <= IntMax then Some(v) else None
  }

  function DigitChar(d: nat): (ch: char)
    requires d < 10
    ensures IsDigit(ch) && ch as int - '0' as int == d
  {
    ('0' as int + d) as char
  }

  /** `Integer.toString` of a non-negative value. */
  function NatToString(n: nat): (s: string)
    ensures |s| >= 1 && AllDigits(s)
  {
    if n < 10 then [DigitChar(n)] else NatToString(n / 10) + [DigitChar(n % 10)]
  }

  /** `Integer.toString`. */
  function IntToString(i: int): (s: string)
    ensures |s| >= 1
  {
    if i < 0 then "-" + NatToString(-i) else NatToString(i)
  }

  lemma {:induction false} NatToStringValue(n: nat)
    ensures DigitsValue(NatToString(n)) == n
  {
    if n >= 10 {
      NatToStringValue(n / 10);
      var s := NatToString(n);
      assert s[..|s| - 1] == NatToString(n / 10);
    }
  }

  /** Printing then parsing an int gives it back. */
  lemma ParseIntToString(i: int)
    requires IntMin <= i <= IntMax
    ensures ParseInt(IntToString(i)) == Some(i)
  {
    var mag: nat := if i < 0 then -i else i;
    var d := NatToString(mag);
    NatToStringValue(mag);
    var s := IntToString(i);
    if i < 0 {
      assert s == "-" + d;
      assert s[0] == '-' && s[1..] == d;
    } else {
      assert s == d && IsDigit(s[0]);
    }
    assert SignedInRange(i < 0, mag) == Some(i);
  }

  /** A printed int holds only digits and possibly a leading minus sign. */
  lemma IntToStringChars(i: int)
    ensures forall k :: 0 <= k < |IntToString(i)| ==> IsDigit(IntToString(i)[k]) || IntToString(i)[k] == '-'
    ensures i >= 0 ==> AllDigits(IntToString(i))
  {
  }
}

=== FILE: wrappers.dfy ===
/** Failure-carrying values used where the Java code returns null or throws. */
module Wrappers {

  /** A value that may be absent (Java's `null`). */
  datatype Option<+T> = None | Some(value: T)

  /** The outcome of an operation that may throw in the Java code. */
  datatype Result<+T> = Success(value: T) | Failure(error: string)
}
